=== FILE: README.md ===
# VolumeRendering core in Dafny

This project models the sequential logic of VolumeRendering, a GPU smoke simulator and volume ray caster. The model covers five parts.

- **`Util::loadVTK`** (`vtk_reader.dfy`, module `VtkReader`, on the C primitives of `ctext.dfy`, module `CText`).
  - The reader handles legacy VTK STRUCTURED_POINTS files, in the layout of Kitware's "VTK File Formats" (simple legacy formats).
  - The file is a byte sequence. `fgets` reads into a 256-byte buffer, `strncmp` compares C strings, and `sscanf` is modelled for `%d` and `%s`.
  - Each way the reader can fail is a `LoadError`.
    - The four where the source returns `false` are `NotDataset`, `NotScalars`, `NotUnsignedShort` and `NoLookupTable`.
    - The others are cases where the source never returns or has undefined behaviour.
  - `vtk_writer.dfy` (module `VtkWriter`) writes files the reader accepts. It is the reader's partner in a proved round trip.
- **`GPGPU::updateData`, `swapTexture` and `restart`** (`ping_pong.dfy`, module `FluidStep`).
  - Each `DataVolume` is an opaque handle and each shader pass is a record: the program, the handles bound for reading, the handle rendered into, and the scalar call-site arguments (the impulse's position and radius are not recorded).
  - One fluid step is the trace of passes, fills and swaps, together with the new texture roles.
  - A symbolic replay records which contents each pass combines. It does not model what the shaders compute.
- **`DataManager`** (`data_manager.dfy`, module `DataManager`):
  - the cloud volume fill, with its x-fastest indexing and the spherical support mask decided in exact arithmetic;
  - `setDataVolume`, `clearAllData` and `createData`.
- **`CreateCubeVao` / `CreateQuadVao`** (`proxy_geometry.dfy`, module `ProxyGeometry`): the constant cube and quad tables.
- **`LoadProgram` paths and the program table of `GPGPU::loadShaderProgram`** (`shader_paths.dfy`, module `ShaderPaths`).

`outcomes.dfy` holds the shared `Option` and `Result` types.

## Model

| member | source | states |
|---|---|---|
| CText.Fgets | VolumeRendering/Util.cpp:184 | `fgets(buff, 256, fp)` takes at most 255 bytes and stops after a newline. At end of file the buffer and the position are left as they were. Otherwise the buffer becomes exactly the bytes consumed. |
| CText.FgetsWholeLine | VolumeRendering/Util.cpp:184 | When a whole line of fewer than 256 bytes lies at the read position, `fgets` returns exactly that line and moves past it. |
| CText.CString | VolumeRendering/Util.cpp:186 | The C string of a buffer is its prefix before the first NUL byte, and holds no NUL. |
| CText.StrncmpIsPrefix | VolumeRendering/Util.cpp:186-193 | Comparing a buffer's C string with `strncmp` against a NUL-free literal, on the literal's length, is the same as the buffer starting with the literal (both directions). |
| CText.ScanIntAt | VolumeRendering/Util.cpp:208 | `%d` reads back the decimal value of a digit run that follows one blank and ends before a non-digit, and stops right after it. |
| CText.ScanWordAt | VolumeRendering/Util.cpp:225 | `%s` reads back a blank-free word written between two blanks. |
| VtkReader.BigEndian | VolumeRendering/Util.cpp:247 | A byte pair read high byte first gives a value in [0, 65536). |
| VtkReader.Sample | VolumeRendering/Util.cpp:247-249 | The stored sample lies in [0, 1), and 65536 times it is the pair's big-endian value. |
| VtkReader.Samples | VolumeRendering/Util.cpp:242-250 | The loop yields exactly `count` samples. Sample i is decoded from bytes p+2i and p+2i+1 of the file. |
| VtkReader.DecodedIsSamples | VolumeRendering/Util.cpp:242-250 | The decoding condition fixes the samples: a sequence is decoded from offset p exactly when it equals what the loop reads there. |
| VtkReader.LookupLineIsRead | VolumeRendering/Util.cpp:234-245 | Where the samples start, one `fgets` from the start of the LOOKUP_TABLE line stops, whatever the buffer held: reading resumes at the first sample. |
| VtkReader.DataNotALineLater | VolumeRendering/Util.cpp:234-245 | Data one line after the LOOKUP_TABLE line does not meet the placement condition: in `LOOKUP_TABLE\nX\n` plus a byte pair, offset 15 is not where the LOOKUP_TABLE line ends. |
| VtkReader.ScanHeader | VolumeRendering/Util.cpp:182-195 | When the header loop ends, the line in the buffer starts with BINARY or ASCII, and the flag is set iff it is BINARY. |
| VtkReader.ScanHeaderReadsLine | VolumeRendering/Util.cpp:182-195 | The line the header loop stops at is exactly the bytes just before the position it reached. |
| VtkReader.ScanHeaderFirstLine | VolumeRendering/Util.cpp:183-195 | A first whole line that starts with BINARY or ASCII ends the scan right after it. Any other first line is skipped: the scan of the rest decides, and only its position moves. |
| VtkReader.SkipsLineBeforeFormat | VolumeRendering/Util.cpp:183-195 | Removing a whole line that starts with neither BINARY nor ASCII from the front of a file does not change what the file loads as, whatever the line holds. |
| VtkReader.FormatLineFirst | VolumeRendering/Util.cpp:183-199 | A file that opens with its format line continues with the line after it. |
| VtkReader.FormatFlagUnused | VolumeRendering/Util.cpp:180-193 | The BINARY and ASCII variants of the format line load alike: the flag the loop sets is never read. |
| VtkReader.LoadAfterDataset | VolumeRendering/Util.cpp:197-202 | After the format line and a line starting with DATASET, loading continues with the structure part. |
| VtkReader.AnyDatasetType | VolumeRendering/Util.cpp:199-202 | Only the first 7 characters of the DATASET line are compared, so every DATASET type loads alike. |
| VtkReader.RejectsOtherStructure | VolumeRendering/Util.cpp:199-202 | A line after the format line that does not start with DATASET makes the load fail with `NotDataset`. |
| VtkReader.LoadDataStale | VolumeRendering/Util.cpp:204-205 | The structure part does not depend on what the buffer held before it. |
| VtkReader.ScanStructure | VolumeRendering/Util.cpp:204-213 | The structure loop ends only at a line starting with POINT_DATA. Running out of lines fails with `NoPointData`. |
| VtkReader.StructureLine | VolumeRendering/Util.cpp:204-213 | One pass over a whole line: a DIMENSIONS line sets the dimensions, a POINT_DATA line ends the loop, any other line is skipped. |
| VtkReader.LaterDimensionsWin | VolumeRendering/Util.cpp:207-208 | The last DIMENSIONS line wins. When a complete one lies ahead, the dimensions held before it do not matter. |
| VtkReader.RejectsNonScalars | VolumeRendering/Util.cpp:218-221 | A line after POINT_DATA that does not start with SCALARS fails with `NotScalars`. |
| VtkReader.RejectsOtherScalarType | VolumeRendering/Util.cpp:223-229 | A SCALARS type that does not start with `unsigned_short` fails with `NotUnsignedShort`. |
| VtkReader.RejectsMissingLookupTable | VolumeRendering/Util.cpp:233-238 | A line after SCALARS that does not start with LOOKUP_TABLE fails with `NoLookupTable`. |
| VtkReader.RejectsOverflow | VolumeRendering/Util.cpp:242-243 | Dimensions whose `int` product overflows are reported as `IntOverflow`. |
| VtkReader.LoadData | VolumeRendering/Util.cpp:197-250 | On success, the dimensions and their products fit an `int`. There are w·h·d samples, decoded from consecutive byte pairs of the part read. They start exactly where one `fgets` of a line beginning with LOOKUP_TABLE stops. |
| VtkReader.Load | VolumeRendering/Util.cpp:176-257 | On success, the dimensions and products fit an `int`. There are exactly w·h·d samples, each in [0, 1), decoded from consecutive big-endian byte pairs of the file. The pairs start exactly where one `fgets` of a line beginning with LOOKUP_TABLE stops. |
| VtkWriter.DimensionsLineParses | VolumeRendering/Util.cpp:207-208 | A written DIMENSIONS line sets all three dimensions to the written values, whatever was held before. |
| VtkWriter.SamplesOfWords | VolumeRendering/Util.cpp:243-249 | Decoding written sample bytes gives each written value divided by 65536. |
| VtkWriter.LinesLoad | VolumeRendering/Util.cpp:204-250 | These lines, followed by data, load as the dimensions of the last DIMENSIONS line and the byte pairs that start right after the LOOKUP_TABLE line:<br>DIMENSIONS, two skipped lines, POINT_DATA, SCALARS of type unsigned_short, LOOKUP_TABLE.<br>With fewer than two bytes per sample the load fails with `TruncatedData`. |
| VtkWriter.LaidOutLoads | VolumeRendering/Util.cpp:176-250 | A whole file laid out as format line, DATASET line and the lines above loads as the byte pairs right after LOOKUP_TABLE. If the data is short, it fails with `TruncatedData`. |
| VtkWriter.GridLoads | VolumeRendering/Util.cpp:197-250 | The written structure and scalar part loads as the written grid. |
| VtkWriter.RoundTrip | VolumeRendering/Util.cpp:176-257 | A written file loads back as its dimensions and its samples divided by 65536, whatever the caller's variables held. |
| FluidStep.SwapTwice | VolumeRendering/GPGPU.cpp:354-359 | `swapTexture` is an involution. It changes a pair whose two volumes differ. |
| FluidStep.FlipDistinct | VolumeRendering/GPGPU.cpp:354-359 | Swapping a field keeps all volumes of the state pairwise distinct. |
| FluidStep.TexturesApartDistinct | VolumeRendering/VolumeRendering.h:23-42 | Nine pairwise different textures give nine pairwise distinct volumes. |
| FluidStep.AdvectFields | VolumeRendering/GPGPU.cpp:118-127 | Three advections and buoyancy: 8 steps. Temperature and density swap roles; velocity swaps twice. |
| FluidStep.ImposeForce | VolumeRendering/GPGPU.cpp:130-131 | Two impulses, and no role changes. |
| FluidStep.DiffuseLoop | VolumeRendering/GPGPU.cpp:135-138 | n Jacobi passes each followed by a swap. Velocity ends swapped iff n is odd. |
| FluidStep.Diffuse | VolumeRendering/GPGPU.cpp:134-139 | The diffusion loop runs only when the viscosity is positive. |
| FluidStep.PressureLoop | VolumeRendering/GPGPU.cpp:144-150 | 4 steps per iteration, and the pressure roles end where they started. |
| FluidStep.SolvePressure | VolumeRendering/GPGPU.cpp:142-150 | Divergence, clear, then jacobiInter iterations. No role changes. |
| FluidStep.Project | VolumeRendering/GPGPU.cpp:154-162 | Boundary, gradient subtraction, boundary, each followed by a velocity swap: velocity ends swapped. |
| FluidStep.UpdateData | VolumeRendering/GPGPU.cpp:107-166 | The step has 18 + 4n steps, plus 2n with viscosity, where n is the number of loop iterations. The divergence volume keeps its place. |
| FluidStep.PassSwap | VolumeRendering/GPGPU.cpp:220-342 | A pass that renders into a field's `pre`, reads only other volumes, and is followed by a swap leaves its output in the field's `cur`. All other contents stay. |
| FluidStep.BlendInPlace | VolumeRendering/GPGPU.cpp:264-276 | The impulse blends into `cur` in place, reading no texture. |
| FluidStep.AdvectFieldsComputes | VolumeRendering/GPGPU.cpp:118-127 | Temperature and density are advected along the already-advected velocity. Buoyancy combines the three. |
| FluidStep.ImposeForceComputes | VolumeRendering/GPGPU.cpp:130-131 | The impulses are alpha-blended in place into the current temperature and density, with their force values; nothing else changes. |
| FluidStep.DiffuseComputes | VolumeRendering/GPGPU.cpp:134-139 | With viscosity, velocity is relaxed n times with the centre and stencil factors. Without it, nothing changes. |
| FluidStep.PressureIterationComputes | VolumeRendering/GPGPU.cpp:145-149 | Each iteration: a Jacobi pass with alpha −dx² and rBeta 0.1666 over pressure and divergence, then a boundary pass with scale +1. |
| FluidStep.SolvePressureComputes | VolumeRendering/GPGPU.cpp:142-150 | The divergence of the velocity is computed. Pressure is cleared to 0 and relaxed n times against it. |
| FluidStep.ProjectComputes | VolumeRendering/GPGPU.cpp:154-162 | Velocity goes through a boundary pass (scale −1), gradient subtraction with the pressure, and another boundary pass (scale −1). |
| FluidStep.UpdateDataComputes | VolumeRendering/GPGPU.cpp:116-162 | From pairwise distinct handles, the whole step leaves every field holding the expected composition of passes, and no pass reads the volume it writes. |
| FluidStep.NoFeedback | VolumeRendering/GPGPU.cpp:118-162 | With distinct handles, no draw binds its destination for reading. |
| FluidStep.PassOrder | VolumeRendering/GPGPU.cpp:116-162 | The passes and swaps come in exactly the source's order:<br>advect ×3, buoyancy, impulse ×2, optional diffusion, divergence, clear, n × (jacobi, swap, boundary, swap), boundary, gradient, boundary. |
| FluidStep.SwapCounts | VolumeRendering/GPGPU.cpp:119-162 | Velocity is swapped 5 times (+n with viscosity), temperature and density once, pressure 2n times. |
| FluidStep.RolesFollowSwaps | VolumeRendering/GPGPU.cpp:118-162 | Every field's pair afterwards is its pair swapped as many times as the trace swaps it. Its set {cur, pre} is unchanged. |
| FluidStep.StepRoles | VolumeRendering/GPGPU.cpp:118-162 | After a step, temperature and density are swapped and pressure is back in place. Velocity is swapped unless diffusion ran an odd number of times. |
| FluidStep.DefaultStep | VolumeRendering/GPGPU.cpp:119-162 | With the program's jacobiInter = 30 and viscosity = 0, the swap counts are 5, 1, 1 and 60. Velocity, temperature and density end swapped; pressure ends in place. |
| FluidStep.FillAllContents | VolumeRendering/DataManager.cpp:27-37 | Filling a list of volumes sets exactly those volumes to the value and changes no role. |
| FluidStep.RestartResets | VolumeRendering/GPGPU.cpp:70-73 | After restart, every volume of the state holds 0 and the current temperature holds the ambient temperature. Nothing else is written. |
| DataManager.Index | VolumeRendering/DataManager.cpp:119 | `z·w·h + y·w + x` lies in [0, w·h·d) for every cell of the grid. |
| DataManager.Coordinates | VolumeRendering/DataManager.cpp:112-121 | Every slot of the buffer is the index of some cell of the grid. |
| DataManager.IndexInRange | VolumeRendering/DataManager.cpp:112-121 | The index of a cell is in range, and decoding it gives the cell back. |
| DataManager.IndexInjective | VolumeRendering/DataManager.cpp:113-123 | Two cells share a slot iff they are the same cell. |
| DataManager.SupportIsExact | VolumeRendering/DataManager.cpp:111-118 | The integer test 25·Σ(2c−n)² < 9·w² holds iff the squared distance from the centre is below σ², with σ = 0.3·width. |
| DataManager.ExponentBound | VolumeRendering/DataManager.cpp:119 | Inside the support, the exponent −dist/2/σ/σ lies in (−0.5, 0]. |
| DataManager.CloudTexel | VolumeRendering/DataManager.cpp:116-122 | A cell gets `expf` of a value in (−0.5, 0] iff it lies inside the support, and 0 otherwise. |
| DataManager.Cloud | VolumeRendering/DataManager.cpp:112 | The cloud buffer has w·h·d slots. |
| DataManager.CreateCloudVolumeData | VolumeRendering/DataManager.cpp:109-125 | The triple loop (x outermost, z innermost) writes every slot exactly once. The buffer equals the cloud, slot by slot. |
| DataManager.CloudValues | VolumeRendering/DataManager.cpp:116-122 | For any exponential that maps (−∞, 0] into (0, 1], a cell inside the support gets a value in (0, 1], and every other cell gets 0. |
| DataManager.SetDataVolume | VolumeRendering/DataManager.cpp:27-37 | Every texel of the volume becomes the value. The grid and size are kept. |
| DataManager.FillForgets | VolumeRendering/DataManager.cpp:27-37 | A fill does not depend on the previous contents, and a second fill overrides the first. |
| DataManager.ClearAllData | VolumeRendering/DataManager.cpp:15-17 | Every texel of the manager's volume becomes 0, and the grid is kept. |
| DataManager.CreateData | VolumeRendering/DataManager.cpp:4-10 | The grid dimensions are recorded. The volume has w·h·d texels, and a cell's texel is 0 iff it lies outside the support. |
| ProxyGeometry.Corner | VolumeRendering/Utility.cpp:142-151 | Position i of the table is the corner with signs from the bits of i: x from bit 2, y from bit 1, z from bit 0. |
| ProxyGeometry.CornerIndex | VolumeRendering/Utility.cpp:142-151 | Every corner of [−1,1]³ is in the table. |
| ProxyGeometry.CornersAreTheCube | VolumeRendering/Utility.cpp:142-151 | The 8 positions are the 8 distinct corners of [−1,1]³. |
| ProxyGeometry.FacesAreTheCube | VolumeRendering/Utility.cpp:153-160 | The six index rows name the six faces of the cube, each once. |
| ProxyGeometry.OnOneFace | VolumeRendering/Utility.cpp:153-160 | A proper triangle whose corners all lie on a face lies on no other face. |
| ProxyGeometry.DrawnByCorners | VolumeRendering/Utility.cpp:153-160 | Two proper, outward-wound triangles on one face that together use its 4 corners draw that face. |
| ProxyGeometry.FrontTable | VolumeRendering/Utility.cpp:154 | The first index row is two triangles on the face z = 1. |
| ProxyGeometry.FrontFace | VolumeRendering/Utility.cpp:154 | They draw the face z = 1, wound outward. |
| ProxyGeometry.BackTable | VolumeRendering/Utility.cpp:155 | The second row is two triangles on z = −1. |
| ProxyGeometry.BackFace | VolumeRendering/Utility.cpp:155 | They draw z = −1, wound outward. |
| ProxyGeometry.TopTable | VolumeRendering/Utility.cpp:156 | The third row is two triangles on y = 1. |
| ProxyGeometry.TopFace | VolumeRendering/Utility.cpp:156 | They draw y = 1, wound outward. |
| ProxyGeometry.BottomTable | VolumeRendering/Utility.cpp:157 | The fourth row is two triangles on y = −1. |
| ProxyGeometry.BottomFace | VolumeRendering/Utility.cpp:157 | They draw y = −1, wound outward. |
| ProxyGeometry.LeftTable | VolumeRendering/Utility.cpp:158 | The fifth row is two triangles on x = −1. |
| ProxyGeometry.LeftFace | VolumeRendering/Utility.cpp:158 | They draw x = −1, wound outward. |
| ProxyGeometry.RightTable | VolumeRendering/Utility.cpp:159 | The sixth row is two triangles on x = 1. |
| ProxyGeometry.RightFace | VolumeRendering/Utility.cpp:159 | They draw x = 1, wound outward. |
| ProxyGeometry.CubeDrawn | VolumeRendering/Utility.cpp:153-160 | Each of the six faces is drawn by its two consecutive triangles of the table: they lie on that face alone, use its four corners and are wound outward. |
| ProxyGeometry.StripTriangle | VolumeRendering/Utility.cpp:195-200 | Triangle i of a strip uses vertices i, i+1, i+2, with the first two exchanged for odd i. |
| ProxyGeometry.QuadCoversScreen | VolumeRendering/Utility.cpp:195-200 | The 4-vertex strip gives two triangles, both wound counter-clockwise (twice the signed area is +4), so face culling keeps them. A point is in [−1,1]² iff it is in one of them, and the two overlap only on the diagonal. |
| ProxyGeometry.CoveringTriangle | VolumeRendering/Utility.cpp:195-200 | Every point of the square lies in one of the strip's triangles. |
| ShaderPaths.ShaderPath | VolumeRendering/Utility.cpp:27-37 | A path is `shader/`, the stage directory, `/`, the name and `.glsl`. |
| ShaderPaths.ParseShaderPath | VolumeRendering/Utility.cpp:27-37 | Every built path reads back as its stage and name. |
| ShaderPaths.ShaderPathOfParse | VolumeRendering/Utility.cpp:27-37 | Every path that reads back is the path built from what it reads back as. |
| ShaderPaths.ShaderPathInjective | VolumeRendering/Utility.cpp:27-37 | Two paths are equal iff stage and name are. |
| ShaderPaths.ProgramFiles | VolumeRendering/Utility.cpp:24-39 | One `LoadProgram` call reads a vertex, a geometry and a fragment file, in that order, each for its own name. |
| ShaderPaths.FluidProgramsShareStages | VolumeRendering/GPGPU.cpp:169-175 | The seven fluid programs read the same vertex and geometry files. |
| ShaderPaths.FragmentFilesDiffer | VolumeRendering/GPGPU.cpp:169-177 | The nine programs read pairwise different fragment files. |
| ShaderPaths.RayProgramsAskForEmptyName | VolumeRendering/GPGPU.cpp:176-177 | The two ray programs pass an empty geometry name, so they ask for `shader/gs/.glsl`. |

## Left out
- **OpenGL calls.**
  - Not modelled: framebuffer and texture allocation, uniforms, draw calls, `resetState`, `cubeIntersectFBO`, rendering and ray casting.
  - A pass is only its program, its bound textures, its destination and its arguments.
- **Shader numerics.** The shader sources are not part of this model. What a pass computes stays a symbolic term.
- **The impulse blend.** `updateImpulse` draws with `GL_BLEND` on under `glBlendFunc(GL_SRC_ALPHA, GL_ONE_MINUS_SRC_ALPHA)` (GPGPU.cpp:113, 273), so a texel becomes α·splat + (1−α)·old. The model records only that the impulse combines its splat with the current contents in place (`Out(AddImpulse, [force], [cur])`). It does not model the blend equation, the splat's position or its radius.
- **Shader file I/O, compiling and linking** (the bodies of `LoadShader` and `LoadProgram`). Only the paths `LoadProgram` builds are modelled.
- **File I/O in `loadVTK`.**
  - `fopen` and `fread` become a byte sequence. An unopenable file is not modelled.
  - `max_val` and `min_val` are only printed and are left out.
- **Floating point.** `float` is modelled as `real`.
  - The stored samples `val/65536` are exact in a float, so nothing is lost there.
  - `expf` stays symbolic (`Texel.Exp`). The float rounding of σ = 0.3·width and of the distance is not modelled: the mask is decided exactly.
  - The dissipation, dt and force values are only recorded as pass arguments.
- **UI and windowing.** Qt, the camera and the main window are not modelled. The duplicate of the cloud fill in the widget code is the same loop as `createCloudVolumeData`.
- **The duplicate cube and quad tables in `Util.cpp`.** They equal those of `Utility.cpp` and are modelled once.
- **`setMaterial`.** Its guard always holds; nothing depends on it here.
- VtkReader.Load: these results are explicit failures where the source does not return `false`.
  - `NoFormatLine` and `NoPointData`: the source's loops never end, because at end of file `fgets` keeps the stale buffer.
  - `MissingScalarType`: the type buffer is compared without ever being written.
  - `IntOverflow`: `sscanf` or `width * height * depth` overflows an `int`.
  - `NegativeCount`: `new float[]` with a negative size throws.
  - `TruncatedData`: `fread` leaves samples undefined.
- VtkReader.Load: its own contract says the samples start where some line beginning with LOOKUP_TABLE ends, not which such line. That it is the line right after SCALARS is stated by `VtkWriter.LaidOutLoads` for one layout only: format line, DATASET, DIMENSIONS, exactly two other lines, POINT_DATA, SCALARS, LOOKUP_TABLE, all whole lines.
- VtkReader.Load: on the late rejections (`NotScalars`, `NotUnsignedShort`, `NoLookupTable`), the source has already stored the parsed dimensions in the caller's variables. The model's failure result does not carry them.
- VtkWriter.RoundTrip: the round trip is stated for grids whose `w·h·d` fits an `int`, the only files the source reads without overflow. Larger grids load as `IntOverflow`.
- FluidStep.ClearAllData: the program's `clearAllData` clears one volume `data` of its manager (DataManager.cpp:15-17). The fluid step uses the nine-volume state of `VolumeRendering.h`, so there `clearAllData` is modelled as clearing every volume of that state, which its comment promises. `DataManager.ClearAllData` models the one-volume version.
- FluidStep.Config: the source fixes `jacobiInter = 30` and `viscosity = 0` (GPGPU.cpp:23, 36). The model keeps both open so that the diffusion branch, dead in the source, is modelled too. `DefaultStep` states the source's values.
- FluidStep.CenterFactor: the source divides by `viscosity * dt` with viscosity 0, an infinite float. The model computes the factor only where the diffusion branch uses it (viscosity > 0).
- DataManager.CreateCloudVolumeData: the grid dimensions are natural numbers, and `w·h·d` is not checked against `int` overflow.

=== FILE: ctext.dfy ===
/**
 * The C library text primitives the VTK reader is built from, over a file
 * held as a sequence of bytes: `fgets` into a 256-byte line buffer,
 * `strncmp` of that buffer against a literal, and the `sscanf` conversions
 * `%d` and `%s`.
 */
module CText {
  import opened Outcomes

  /** One byte of a file. It is held as a character below 256 so that string
      literals can stand for byte strings. */
  type Byte = c: char | c as int < 256 witness '\0'

  const NewLine: Byte := '\n'
  const Nul: Byte := '\0'

  /** Size of the line buffer; `fgets` stores at most one byte less. */
  const BufferSize: nat := 256

  predicate StartsWith(s: seq<Byte>, p: seq<char>) {
    |p| <= |s| && s[..|p|] == p
  }

  /** The buffer as the C string functions see it: everything before the
      first NUL byte. */
  function CString(buf: seq<Byte>): (s: seq<Byte>)
    ensures s <= buf
    ensures Nul !in s
    ensures |s| < |buf| ==> buf[|s|] == Nul
  {
    if |buf| == 0 || buf[0] == Nul then []
    else [buf[0]] + CString(buf[1..])
  }

  /** `strncmp(buf, lit, |lit|) == 0` compares the C strings `buf` and `lit`
      on their first |lit| bytes. For a literal without NUL bytes that is
      the same as `buf` starting with `lit`; the reader uses `StartsWith`
      for it. */
  lemma StrncmpIsPrefix(buf: seq<Byte>, lit: string)
    requires Nul !in lit
    ensures StartsWith(CString(buf), lit) <==> StartsWith(buf, lit)
  {
    var s := CString(buf);
    if StartsWith(s, lit) {
      assert buf[..|lit|] == s[..|lit|];
    }
  }

  /** A buffer without NUL bytes is its own C string. */
  lemma {:induction false} CStringWithoutNul(buf: seq<Byte>)
    requires Nul !in buf
    ensures CString(buf) == buf
  {
    if |buf| > 0 {
      assert buf == [buf[0]] + buf[1..];
      CStringWithoutNul(buf[1..]);
    }
  }

  /** A buffer that differs from `p` at some index below |p| does not start
      with `p`. */
  lemma DiffersAt(s: seq<Byte>, p: seq<char>, k: nat)
    requires k < |p| && k < |s| && s[k] != p[k]
    ensures !StartsWith(s, p)
  {
    if |p| <= |s| {
      assert s[..|p|][k] == s[k];
    }
  }

  /** Number of bytes one `fgets` call with room for `room` bytes takes from
      position `pos`: up to and including the first newline, at most `room`
      bytes, and no more than the file holds. */
  function LineLength(f: seq<Byte>, pos: nat, room: nat): (k: nat)
    requires pos <= |f|
    ensures pos + k <= |f| && k <= room
    ensures room > 0 && pos < |f| ==> k >= 1
    decreases room
  {
    if room == 0 || pos == |f| then 0
    else if f[pos] == NewLine then 1
    else 1 + LineLength(f, pos + 1, room - 1)
  }

  /** A line is measured the same in a suffix of the file as in the file. */
  lemma {:induction false} LineLengthInSuffix(f: seq<Byte>, k: nat, pos: nat, room: nat)
    requires k + pos <= |f|
    ensures LineLength(f[k..], pos, room) == LineLength(f, k + pos, room)
    decreases room
  {
    if room > 0 && k + pos < |f| {
      assert f[k..][pos] == f[k + pos];
      LineLengthInSuffix(f, k, pos + 1, room - 1);
    }
  }

  /** What `LineLength` takes: no newline before its last byte, and it
      stops short of the room and of the end of the file only after a
      newline. */
  lemma {:induction false} LineLengthStopsAtNewLine(f: seq<Byte>, pos: nat, room: nat)
    requires pos <= |f|
    ensures var k := LineLength(f, pos, room);
      && (forall i | pos <= i < pos + k - 1 :: f[i] != NewLine)
      && (k < room && pos + k < |f| ==> k >= 1 && f[pos + k - 1] == NewLine)
    decreases room
  {
    if room > 0 && pos < |f| && f[pos] != NewLine {
      LineLengthStopsAtNewLine(f, pos + 1, room - 1);
    }
  }

  /** The reading state: stream position and the line buffer's contents. */
  datatype Reader = Reader(pos: nat, buffer: seq<Byte>)

  /** `fgets(buffer, 256, fp)`: the next line, or the next 255 bytes of a
      longer one, replaces the buffer. At end of file the call fails and
      leaves the buffer holding the previous line. */
  function Fgets(f: seq<Byte>, r: Reader): (r': Reader)
    requires r.pos <= |f|
    ensures r'.pos <= |f|
    ensures r.pos == |f| ==> r' == r
    ensures r.pos < |f| ==> r.pos < r'.pos && r'.buffer == f[r.pos..r'.pos]
    ensures r.pos < |f| ==> |r'.buffer| < BufferSize
  {
    if r.pos == |f| then r
    else
      var k := LineLength(f, r.pos, BufferSize - 1);
      Reader(r.pos + k, f[r.pos..r.pos + k])
  }

  /** A complete line that fits the buffer: it ends with its only newline. */
  predicate WholeLine(l: seq<Byte>) {
    && 1 <= |l| < BufferSize
    && l[|l| - 1] == NewLine
    && forall i | 0 <= i < |l| - 1 :: l[i] != NewLine
  }

  /** When a whole line starts at the read position, `fgets` returns exactly
      that line. */
  lemma FgetsWholeLine(f: seq<Byte>, r: Reader, l: seq<Byte>)
    requires r.pos + |l| <= |f| && f[r.pos..r.pos + |l|] == l
    requires WholeLine(l)
    ensures Fgets(f, r) == Reader(r.pos + |l|, l)
  {
    var k := LineLength(f, r.pos, BufferSize - 1);
    LineLengthStopsAtNewLine(f, r.pos, BufferSize - 1);
    assert f[r.pos + |l| - 1] == l[|l| - 1];
  }

  /** The bytes C's `isspace` accepts. */
  predicate IsSpace(c: Byte) {
    c == ' ' || '\t' <= c <= '\r'
  }

  predicate IsDigit(c: Byte) {
    '0' <= c <= '9'
  }

  predicate AllDigits(s: seq<Byte>) {
    forall i | 0 <= i < |s| :: IsDigit(s[i])
  }

  /** The end of the run of white space that starts at `i`. */
  function SkipSpace(s: seq<Byte>, i: nat): (j: nat)
    requires i <= |s|
    ensures i <= j <= |s|
    ensures j == |s| || !IsSpace(s[j])
    decreases |s| - i
  {
    if i == |s| || !IsSpace(s[i]) then i else SkipSpace(s, i + 1)
  }

  lemma {:induction false} SkipSpaceSpan(s: seq<Byte>, i: nat)
    requires i <= |s|
    ensures forall k | i <= k < SkipSpace(s, i) :: IsSpace(s[k])
    decreases |s| - i
  {
    if i < |s| && IsSpace(s[i]) {
      SkipSpaceSpan(s, i + 1);
    }
  }

  /** The end of the run of decimal digits that starts at `i`. */
  function DigitsEnd(s: seq<Byte>, i: nat): (j: nat)
    requires i <= |s|
    ensures i <= j <= |s|
    ensures j == |s| || !IsDigit(s[j])
    decreases |s| - i
  {
    if i == |s| || !IsDigit(s[i]) then i else DigitsEnd(s, i + 1)
  }

  lemma {:induction false} DigitsEndSpan(s: seq<Byte>, i: nat)
    requires i <= |s|
    ensures forall k | i <= k < DigitsEnd(s, i) :: IsDigit(s[k])
    decreases |s| - i
  {
    if i < |s| && IsDigit(s[i]) {
      DigitsEndSpan(s, i + 1);
    }
  }

  /** The end of the run of non-blank bytes that starts at `i`. */
  function WordEnd(s: seq<Byte>, i: nat): (j: nat)
    requires i <= |s|
    ensures i <= j <= |s|
    ensures j == |s| || IsSpace(s[j])
    decreases |s| - i
  {
    if i == |s| || IsSpace(s[i]) then i else WordEnd(s, i + 1)
  }

  lemma {:induction false} WordEndSpan(s: seq<Byte>, i: nat)
    requires i <= |s|
    ensures forall k | i <= k < WordEnd(s, i) :: !IsSpace(s[k])
    decreases |s| - i
  {
    if i < |s| && !IsSpace(s[i]) {
      WordEndSpan(s, i + 1);
    }
  }

  /** The value of a decimal digit; other bytes never reach it. */
  function DigitValue(c: Byte): (v: nat) {
    if IsDigit(c) then c as int - '0' as int else 0
  }

  /** The value of a string of decimal digits, most significant first. */
  function Decimal(ds: seq<Byte>): (n: nat) {
    if |ds| == 0 then 0
    else 10 * Decimal(ds[..|ds| - 1]) + DigitValue(ds[|ds| - 1])
  }

  /** `%d` in `sscanf` from offset `i`: blanks, an optional sign and at least
      one digit; the value and the offset after the last digit. */
  function ScanInt(s: seq<Byte>, i: nat): (r: Option<(int, nat)>)
    requires i <= |s|
    ensures r.Some? ==> i < r.value.1 <= |s| && IsDigit(s[r.value.1 - 1])
    decreases |s| - i
  {
    if i < |s| && IsSpace(s[i]) then ScanInt(s, i + 1)
    else
      var signed := i < |s| && (s[i] == '-' || s[i] == '+');
      var k := if signed then i + 1 else i;
      var e := DigitsEnd(s, k);
      if e == k then None
      else
        DigitsEndSpan(s, k);
        var n: int := Decimal(s[k..e]);
        Some((if signed && s[i] == '-' then -n else n, e))
  }

  /** `%s` in `sscanf` from offset `i`: blanks, then the longest non-blank
      run, which must not be empty. */
  function ScanWord(s: seq<Byte>, i: nat): (r: Option<(seq<Byte>, nat)>)
    requires i <= |s|
    ensures r.Some? ==> i < r.value.1 <= |s| && 1 <= |r.value.0| <= r.value.1
    ensures r.Some? ==> r.value.0 == s[r.value.1 - |r.value.0|..r.value.1]
    ensures r.Some? ==> forall k | 0 <= k < |r.value.0| :: !IsSpace(r.value.0[k])
  {
    var j := SkipSpace(s, i);
    var e := WordEnd(s, j);
    WordEndSpan(s, j);
    if e == j then None else Some((s[j..e], e))
  }

  /** `%s` reads back a blank-free word written after one blank and before
      another. */
  lemma ScanWordAt(s: seq<Byte>, i: nat, w: seq<Byte>)
    requires |w| >= 1 && forall k | 0 <= k < |w| :: !IsSpace(w[k])
    requires i + 1 + |w| < |s| && IsSpace(s[i]) && IsSpace(s[i + 1 + |w|])
    requires s[i + 1..i + 1 + |w|] == w
    ensures ScanWord(s, i) == Some((w, i + 1 + |w|))
  {
    assert s[i + 1] == w[0];
    SkipOneBlank(s, i);
    WordEndSpan(s, i + 1);
    assert forall k | i + 1 <= k < i + 1 + |w| :: s[k] == w[k - i - 1];
  }

  function DigitChar(d: nat): (c: Byte)
    requires d < 10
    ensures IsDigit(c) && DigitValue(c) == d
  {
    ('0' as int + d) as char
  }

  /** Decimal notation of a natural number, as `printf("%d")` writes it. */
  function Itoa(n: nat): (ds: seq<Byte>)
    ensures |ds| >= 1 && AllDigits(ds)
    ensures Decimal(ds) == n
  {
    if n < 10 then [DigitChar(n)]
    else
      var ds := Itoa(n / 10) + [DigitChar(n % 10)];
      assert ds[..|ds| - 1] == Itoa(n / 10);
      ds
  }

  function Pow10(k: nat): (p: nat) {
    if k == 0 then 1 else 10 * Pow10(k - 1)
  }

  /** A number below 10^k is written with at most k digits. */
  lemma {:induction false} ItoaLength(n: nat, k: nat)
    requires 1 <= k && n < Pow10(k)
    ensures |Itoa(n)| <= k
  {
    if n >= 10 {
      ItoaLength(n / 10, k - 1);
    }
  }

  /** `s` holds the digits `ds` after the blank at offset `i`, followed by a
      non-digit. */
  predicate NumberAt(s: seq<Byte>, i: nat, ds: seq<Byte>) {
    && |ds| >= 1 && AllDigits(ds)
    && i + 1 + |ds| < |s| && IsSpace(s[i])
    && s[i + 1..i + 1 + |ds|] == ds
    && !IsDigit(s[i + 1 + |ds|])
  }

  lemma SkipOneBlank(s: seq<Byte>, i: nat)
    requires i + 1 < |s| && IsSpace(s[i]) && !IsSpace(s[i + 1])
    ensures SkipSpace(s, i) == i + 1
  {
    SkipSpaceSpan(s, i);
  }

  lemma DigitsEndAt(s: seq<Byte>, i: nat, e: nat)
    requires i <= e < |s| && AllDigits(s[i..e]) && !IsDigit(s[e])
    ensures DigitsEnd(s, i) == e
  {
    DigitsEndSpan(s, i);
    assert forall k | i <= k < e :: IsDigit(s[k]) by {
      assert forall k | i <= k < e :: s[i..e][k - i] == s[k];
    }
  }

  /** `%d` reads back a number written after one blank. */
  lemma ScanIntAt(s: seq<Byte>, i: nat, ds: seq<Byte>, e: nat)
    requires NumberAt(s, i, ds) && e == i + 1 + |ds|
    ensures ScanInt(s, i) == Some((Decimal(ds), e))
  {
    assert s[i + 1] == ds[0];
    assert ScanInt(s, i) == ScanInt(s, i + 1);
    DigitsEndAt(s, i + 1, i + 1 + |ds|);
  }
}

=== FILE: data_manager.dfy ===
/**
 * `DataManager`: the single 3D texture the manager owns, its initial cloud
 * of density (a ball around the grid centre whose values fall off as a
 * Gaussian) and the constant fill used to clear it.
 *
 * The cloud buffer is laid out x fastest: cell (x, y, z) lives at slot
 * z * width * height + y * width + x. The loops that fill it run x outermost
 * and z innermost, so consecutive writes are far apart in memory; the model
 * shows that they still write every slot exactly once.
 */
module DataManager {
  import opened Outcomes

  /** The grid dimensions the manager records (`_gridWidth`, `_gridHeight`, `_gridDepth`). */
  datatype Grid = Grid(width: nat, height: nat, depth: nat)

  /** A grid cell by its coordinates. */
  datatype Cell = Cell(x: int, y: int, z: int)

  /**
   * One texel. `Exp(a)` stands for the float `expf(a)`, which stays symbolic;
   * every other value is a `Value`.
   */
  datatype Texel = Value(v: real) | Exp(arg: real)

  /** A 3D texture: its grid and its texels in buffer order. */
  datatype Texture = Texture(grid: Grid, texels: seq<Texel>)

  /** The manager's state: the recorded dimensions and its one data volume. */
  datatype Manager = Manager(grid: Grid, data: Texture)

  function Size(g: Grid): (n: nat)
  {
    g.width * g.height * g.depth
  }

  predicate InGrid(g: Grid, c: Cell)
  {
    0 <= c.x < g.width && 0 <= c.y < g.height && 0 <= c.z < g.depth
  }

  // ---------------------------------------------------------------------------
  // Linear indexing

  /** The buffer slot of a cell, x fastest. */
  function Index(g: Grid, c: Cell): (i: int)
    ensures InGrid(g, c) ==> 0 <= i < Size(g)
  {
    var i := c.z * g.width * g.height + c.y * g.width + c.x;
    if InGrid(g, c) then SlotRange(c.x, c.y, c.z, g.width, g.height, g.depth); i else i
  }

  /** Multiplying by a non-negative factor keeps an order. */
  lemma MulLe(a: int, b: int, n: int)
    requires a <= b && 0 <= n
    ensures a * n <= b * n
  {
    assert b * n - a * n == (b - a) * n;
  }

  /** A strict order between multiples of a positive factor is an order between the multipliers. */
  lemma MulLtCancel(a: int, b: int, n: int)
    requires 0 < n && a * n < b * n
    ensures a < b
  {
    if b <= a {
      MulLe(b, a, n);
    }
  }

  /** The slot formula stays below width * height * depth. */
  lemma SlotRange(x: int, y: int, z: int, w: int, h: int, d: int)
    requires 0 <= x < w && 0 <= y < h && 0 <= z < d
    ensures z * w * h + y * w + x == (z * h + y) * w + x
    ensures 0 <= z * w * h + y * w + x < w * h * d
  {
    MulLe(z, d - 1, h);
    MulLe(0, z * h + y, w);
    MulLe(z * h + y, d * h - 1, w);
    assert (d * h - 1) * w == w * h * d - w;
    assert z * w * h + y * w == (z * h + y) * w;
  }

  /** Euclidean division of q * n + r by n, for a remainder below n. */
  lemma DivMod(q: int, r: int, n: int)
    requires 0 <= r < n
    ensures (q * n + r) / n == q
    ensures (q * n + r) % n == r
  {
    var a := q * n + r;
    var e := a / n - q;
    assert a == (a / n) * n + a % n;
    assert e * n == r - a % n;
    MulLtCancel(e, 1, n);
    MulLtCancel(-e, 1, n);
  }

  /** A slot below width * height * depth splits into coordinates inside the grid. */
  lemma Split(i: int, w: int, h: int, d: int)
    requires 0 <= i < w * h * d && w > 0 && h > 0
    ensures 0 <= (i / w) / h < d
    ensures ((i / w) / h) * w * h + ((i / w) % h) * w + i % w == i
  {
    var q := i / w;
    assert i == q * w + i % w;
    assert q == (q / h) * h + q % h;
    SplitDigits(i, w, h, d, q, i % w, q / h, q % h);
  }

  /** Split, with the quotients and remainders named. */
  lemma SplitDigits(i: int, w: int, h: int, d: int, q: int, x: int, z: int, y: int)
    requires 0 <= i < w * h * d && w > 0 && h > 0
    requires i == q * w + x && 0 <= x < w
    requires q == z * h + y && 0 <= y < h
    ensures 0 <= z < d
    ensures z * w * h + y * w + x == i
  {
    assert w * h * d == (h * d) * w;
    MulLtCancel(q, h * d, w);
    MulLtCancel(-1, q, w);
    MulLtCancel(z, d, h);
    MulLtCancel(-1, z, h);
    Regroup(z, y, w, h);
  }

  lemma Regroup(z: int, y: int, w: int, h: int)
    ensures z * w * h + y * w == (z * h + y) * w
  {
  }

  /** The cell that owns a buffer slot: the inverse of Index. */
  function Coordinates(g: Grid, i: int): (c: Cell)
    requires 0 <= i < Size(g)
    ensures InGrid(g, c)
    ensures Index(g, c) == i
  {
    var w := g.width;
    var h := g.height;
    assert w > 0 && h > 0;
    Split(i, w, h, g.depth);
    Cell(i % w, (i / w) % h, (i / w) / h)
  }

  /** Every cell of the grid has a slot in the buffer, and Coordinates finds the cell again. */
  lemma IndexInRange(g: Grid, c: Cell)
    requires InGrid(g, c)
    ensures 0 <= Index(g, c) < Size(g)
    ensures Coordinates(g, Index(g, c)) == c
  {
    var w := g.width;
    var h := g.height;
    SlotRange(c.x, c.y, c.z, w, h, g.depth);
    DivMod(c.z * h + c.y, c.x, w);
    DivMod(c.z, c.y, h);
  }

  /** Two cells of the grid share a slot only if they are the same cell. */
  lemma IndexInjective(g: Grid, c1: Cell, c2: Cell)
    requires InGrid(g, c1) && InGrid(g, c2)
    ensures Index(g, c1) == Index(g, c2) <==> c1 == c2
  {
    IndexInRange(g, c1);
    IndexInRange(g, c2);
  }

  // ---------------------------------------------------------------------------
  // The cloud

  /** Four times the squared distance of a cell from the grid centre, kept in integers. */
  function Spread(g: Grid, c: Cell): (s: int)
    ensures s >= 0
  {
    var dx := 2 * c.x - g.width;
    var dy := 2 * c.y - g.height;
    var dz := 2 * c.z - g.depth;
    dx * dx + dy * dy + dz * dz
  }

  /** The ball the cloud occupies, decided exactly in integers. */
  predicate InSupport(g: Grid, c: Cell)
  {
    25 * Spread(g, c) < 9 * g.width * g.width
  }

  /** sigma: 0.3 times the width, whatever the height and depth. */
  function Sigma(g: Grid): (s: real)
  {
    g.width as real * 0.3
  }

  /** The squared distance of a cell from (width/2, height/2, depth/2), as the source computes it. */
  function Dist(g: Grid, c: Cell): (d: real)
    ensures d >= 0.0
  {
    var dx := c.x as real - g.width as real * 0.5;
    var dy := c.y as real - g.height as real * 0.5;
    var dz := c.z as real - g.depth as real * 0.5;
    dx * dx + dy * dy + dz * dz
  }

  /** The source's test `dist < sigma * sigma` and the integer test agree on every cell. */
  lemma SupportIsExact(g: Grid, c: Cell)
    ensures InSupport(g, c) <==> Dist(g, c) < Sigma(g) * Sigma(g)
    ensures InSupport(g, c) ==> Sigma(g) > 0.0
  {
    var dx := 2 * c.x - g.width;
    var dy := 2 * c.y - g.height;
    var dz := 2 * c.z - g.depth;
    var rx := c.x as real - g.width as real * 0.5;
    var ry := c.y as real - g.height as real * 0.5;
    var rz := c.z as real - g.depth as real * 0.5;
    assert rx == dx as real / 2.0 && ry == dy as real / 2.0 && rz == dz as real / 2.0;
    assert 4.0 * Dist(g, c) == Spread(g, c) as real;
    assert 100.0 * (Sigma(g) * Sigma(g)) == (9 * g.width * g.width) as real;
  }

  /** Inside the ball the exponent -dist / 2 / sigma / sigma lies in (-1/2, 0]. */
  lemma ExponentBound(dist: real, s: real)
    requires 0.0 <= dist < s * s && s > 0.0
    ensures -0.5 < -dist / 2.0 / s / s <= 0.0
  {
    var r := dist / (s * s);
    assert r * (s * s) == dist;
    assert (1.0 - r) * (s * s) == s * s - dist;
    if r >= 1.0 {
      MulNonPos(1.0 - r, s * s);
    }
    assert -dist / 2.0 / s / s == -r / 2.0;
  }

  lemma MulNonPos(a: real, b: real)
    requires a <= 0.0 && b >= 0.0
    ensures a * b <= 0.0
  {
  }

  /** The texel the fill stores for a cell. */
  function CloudTexel(g: Grid, c: Cell): (t: Texel)
    ensures t.Value? <==> !InSupport(g, c)
    ensures t.Value? ==> t.v == 0.0
    ensures t.Exp? ==> -0.5 < t.arg <= 0.0
  {
    SupportIsExact(g, c);
    if Dist(g, c) < Sigma(g) * Sigma(g) then
      var s := Sigma(g);
      ExponentBound(Dist(g, c), s);
      Exp(-Dist(g, c) / 2.0 / s / s)
    else
      Value(0.0)
  }

  /** The cloud as a whole: slot i holds the texel of the cell that owns it. */
  function Cloud(g: Grid): (s: seq<Texel>)
    ensures |s| == Size(g)
  {
    seq(Size(g), i requires 0 <= i < Size(g) => CloudTexel(g, Coordinates(g, i)))
  }

  /** Whether the fill loops, about to handle cell (x, y, z), have already handled c. */
  predicate Before(c: Cell, x: int, y: int, z: int)
  {
    c.x < x || (c.x == x && (c.y < y || (c.y == y && c.z < z)))
  }

  /** A slot of the buffer once the loops have reached (x, y, z): written if its cell came before. */
  function FilledSlot(g: Grid, i: int, x: int, y: int, z: int): (slot: Option<Texel>)
    requires 0 <= i < Size(g)
  {
    var c := Coordinates(g, i);
    if Before(c, x, y, z) then Some(CloudTexel(g, c)) else None
  }

  /**
   * The array fill of createCloudVolumeData. `buf` is the fresh `new float[]`
   * (None: never written); every write lands on a slot nobody has written yet,
   * and at the end every slot holds its cell's texel.
   */
  method CreateCloudVolumeData(g: Grid) returns (data: seq<Texel>)
    ensures data == Cloud(g)
  {
    var n := Size(g);
    var buf: seq<Option<Texel>> := seq(n, i => None);
    var x := 0;
    while x < g.width
      invariant 0 <= x <= g.width
      invariant |buf| == n
      invariant forall i :: 0 <= i < n ==> buf[i] == FilledSlot(g, i, x, 0, 0)
    {
      var y := 0;
      while y < g.height
        invariant 0 <= y <= g.height
        invariant |buf| == n
        invariant forall i :: 0 <= i < n ==> buf[i] == FilledSlot(g, i, x, y, 0)
      {
        var z := 0;
        while z < g.depth
          invariant 0 <= z <= g.depth
          invariant |buf| == n
          invariant forall i :: 0 <= i < n ==> buf[i] == FilledSlot(g, i, x, y, z)
        {
          var c := Cell(x, y, z);
          IndexInRange(g, c);
          var k := z * g.width * g.height + y * g.width + x;
          assert buf[k] == None;
          buf := buf[k := Some(CloudTexel(g, c))];
          forall i | 0 <= i < n
            ensures buf[i] == FilledSlot(g, i, x, y, z + 1)
          {
            if i != k {
              assert Coordinates(g, i) != c;
            }
          }
          z := z + 1;
        }
        y := y + 1;
      }
      x := x + 1;
    }
    data := seq(n, i requires 0 <= i < n => if buf[i].Some? then buf[i].value else Value(0.0));
    assert forall i :: 0 <= i < n ==> buf[i] == Some(CloudTexel(g, Coordinates(g, i)));
  }

  // ---------------------------------------------------------------------------
  // The manager's operations

  /** setDataVolume: every texel of the volume becomes `value`. */
  function SetDataVolume(t: Texture, value: real): (r: Texture)
    ensures r.grid == t.grid && |r.texels| == |t.texels|
    ensures forall i :: 0 <= i < |r.texels| ==> r.texels[i] == Value(value)
  {
    Texture(t.grid, seq(|t.texels|, i => Value(value)))
  }

  /** A fill forgets what the volume held before, so the last fill wins. */
  lemma FillForgets(t: Texture, u: Texture, a: real, b: real)
    requires t.grid == u.grid && |t.texels| == |u.texels|
    ensures SetDataVolume(t, a) == SetDataVolume(u, a)
    ensures SetDataVolume(SetDataVolume(t, a), b) == SetDataVolume(t, b)
  {
  }

  /** clearAllData: the manager's volume is filled with 0 and the recorded grid is kept. */
  function ClearAllData(m: Manager): (r: Manager)
    ensures r.grid == m.grid && r.data.grid == m.data.grid
    ensures |r.data.texels| == |m.data.texels|
    ensures forall i :: 0 <= i < |r.data.texels| ==> r.data.texels[i] == Value(0.0)
  {
    m.(data := SetDataVolume(m.data, 0.0))
  }

  /** createData: record the dimensions, then build the cloud from the recorded ones. */
  method CreateData(width: nat, height: nat, depth: nat) returns (m: Manager)
    ensures m.grid == Grid(width, height, depth) && m.data.grid == m.grid
    ensures |m.data.texels| == width * height * depth
    ensures forall c :: InGrid(m.grid, c) ==>
              var t := m.data.texels[Index(m.grid, c)];
              (t == Value(0.0) <==> !InSupport(m.grid, c)) && (t.Exp? ==> -0.5 < t.arg <= 0.0)
  {
    var g := Grid(width, height, depth);
    var texels := CreateCloudVolumeData(g);
    m := Manager(g, Texture(g, texels));
    forall c | InGrid(m.grid, c)
      ensures var t := m.data.texels[Index(m.grid, c)];
              (t == Value(0.0) <==> !InSupport(m.grid, c)) && (t.Exp? ==> -0.5 < t.arg <= 0.0)
    {
      IndexInRange(g, c);
    }
  }

  /**
   * The cloud's values as floats: for any `exp` that is positive and at most 1
   * on non-positive arguments (as expf is), every texel of the cloud lies in
   * [0, 1], is 0 off the ball and positive on it.
   */
  lemma CloudValues(g: Grid, c: Cell, exp: real -> real)
    requires forall a :: a <= 0.0 ==> 0.0 < exp(a) <= 1.0
    requires InGrid(g, c)
    ensures var v := Eval(Cloud(g)[Index(g, c)], exp);
            (InSupport(g, c) ==> 0.0 < v <= 1.0) && (!InSupport(g, c) ==> v == 0.0)
  {
    IndexInRange(g, c);
  }

  /** The float a texel holds, given the exponential function. */
  function Eval(t: Texel, exp: real -> real): (v: real)
  {
    match t
    case Value(v) => v
    case Exp(a) => exp(a)
  }
}

=== FILE: outcomes.dfy ===
/**
 * Option and Result values shared by the models: a Result carries either the
 * value an operation produced or the reason it produced none.
 */
module Outcomes {

  datatype Option<+T> = None | Some(value: T)

  datatype Result<+T, +E> = Success(value: T) | Failure(error: E)
}

=== FILE: ping_pong.dfy ===
/**
 * The pass schedule of one fluid step (GPGPU::updateData) on double-buffered
 * 3D textures. Every texture is an opaque handle; every shader pass is a
 * record of the program it runs, the handles it binds for reading, the
 * handle whose framebuffer it renders into and its scalar call-site
 * arguments (the impulse's position and radius are not recorded).
 * What the shaders compute is not modelled: a symbolic semantics
 * (Replay) only records which earlier contents each pass combines.
 */
module FluidStep {

  /** A DataVolume: a framebuffer object with the 3D texture attached to it. */
  datatype Volume = Volume(fbo: nat, texture: nat)

  /** A DuoDataVolume: passes read `cur`, render into `pre`, then swap the roles. */
  datatype Duo = Duo(cur: Volume, pre: Volume)

  /** The simulation state of the fluid: four double-buffered fields and the divergence. */
  datatype RenderData = RenderData(velocity: Duo, density: Duo, pressure: Duo, temperature: Duo, divergence: Volume)

  datatype Field = Velocity | Density | Pressure | Temperature

  /** The shader programs one fluid step runs. */
  datatype Program = Advection | Buoyancy | AddImpulse | Jacobi | Divergence | SubtractGradient | Boundary

  /**
   * One draw call: `sources` are the textures bound to texture units 0, 1, 2
   * in that order, `dest` the volume whose framebuffer is bound for output.
   * A blended pass (the impulse) combines its output with what `dest` holds.
   */
  datatype Pass = Pass(program: Program, sources: seq<Volume>, dest: Volume, blend: bool, args: seq<real>)

  /** What updateData does to the textures, in program order. */
  datatype Step =
    | Draw(pass: Pass)               // one of the update passes
    | Fill(target: Volume, value: real)  // DataManager::setDataVolume
    | Swap(field: Field)             // GPGPU::swapTexture on one field

  /**
   * The settings the schedule depends on. The program fixes them to
   * jacobiInter = 30 and viscosity = 0; the model keeps them open so that
   * the diffusion branch the constant switches off is modelled too.
   */
  datatype Config = Config(jacobiInter: int, viscosity: real)

  const Default: Config := Config(30, 0.0)

  const VelocityDissipation: real := 0.99
  const TemperatureDissipation: real := 0.99
  const DensityDissipation: real := 0.99
  const Dt: real := 0.25
  const ForceTemperature: real := 10.0
  const ForceDensity: real := 1.0
  const AmbientTemperature: real := 0.0
  const Dx: real := 1.0
  const PressureGradientRBeta: real := 0.1666

  /** The number of times `for (int i = 0; i < n; ++i)` runs its body. */
  function Times(n: int): (k: nat)
  {
    if n < 0 then 0 else n
  }

  /** dx*dx / (viscosity*dt); only evaluated on the branch where viscosity > 0. */
  function CenterFactor(viscosity: real): (c: real)
    requires viscosity > 0.0
  {
    Dx * Dx / (viscosity * Dt)
  }

  function StencilFactor(viscosity: real): (s: real)
    requires viscosity > 0.0
  {
    1.0 / (6.0 + CenterFactor(viscosity))
  }

  function Of(d: RenderData, f: Field): (p: Duo)
  {
    match f
    case Velocity => d.velocity
    case Density => d.density
    case Pressure => d.pressure
    case Temperature => d.temperature
  }

  function With(d: RenderData, f: Field, p: Duo): (d': RenderData)
  {
    match f
    case Velocity => d.(velocity := p)
    case Density => d.(density := p)
    case Pressure => d.(pressure := p)
    case Temperature => d.(temperature := p)
  }

  /** GPGPU::swapTexture: exchange the roles of the two volumes of a pair. */
  function SwapTexture(p: Duo): (q: Duo)
  {
    Duo(p.pre, p.cur)
  }

  /** The state after swapTexture(&data.f). */
  function Flip(d: RenderData, f: Field): (d': RenderData)
  {
    With(d, f, SwapTexture(Of(d, f)))
  }

  /** Swapping a pair twice restores it. */
  lemma SwapTwice(p: Duo)
    ensures SwapTexture(SwapTexture(p)) == p
    ensures p.cur != p.pre ==> SwapTexture(p) != p
  {
  }

  function Handles(p: Duo): (hs: set<Volume>)
  {
    {p.cur, p.pre}
  }

  /**
   * The nine volumes of the state are pairwise different handles. A volume is
   * compared as its (fbo, texture) pair: every DataVolume is made with a
   * framebuffer and a texture of its own, attached to each other, so two
   * volumes of the state differ exactly when their textures do (and
   * TexturesApart below is enough to meet this).
   */
  predicate Distinct(d: RenderData)
  {
    && d.velocity.cur != d.velocity.pre
    && d.density.cur != d.density.pre
    && d.pressure.cur != d.pressure.pre
    && d.temperature.cur != d.temperature.pre
    && Handles(d.velocity) !! Handles(d.density)
    && Handles(d.velocity) !! Handles(d.pressure)
    && Handles(d.velocity) !! Handles(d.temperature)
    && Handles(d.density) !! Handles(d.pressure)
    && Handles(d.density) !! Handles(d.temperature)
    && Handles(d.pressure) !! Handles(d.temperature)
    && d.divergence !in Handles(d.velocity) + Handles(d.density) + Handles(d.pressure) + Handles(d.temperature)
  }

  /** The nine textures of the state are pairwise different. */
  predicate TexturesApart(d: RenderData)
  {
    var vs := [d.velocity.cur, d.velocity.pre, d.density.cur, d.density.pre, d.pressure.cur, d.pressure.pre,
               d.temperature.cur, d.temperature.pre, d.divergence];
    forall i, j :: 0 <= i < j < |vs| ==> vs[i].texture != vs[j].texture
  }

  /** Different textures make different volumes, so every result stated for
      Distinct states holds for states whose textures are apart. */
  lemma TexturesApartDistinct(d: RenderData)
    requires TexturesApart(d)
    ensures Distinct(d)
  {
    var vs := [d.velocity.cur, d.velocity.pre, d.density.cur, d.density.pre, d.pressure.cur, d.pressure.pre,
               d.temperature.cur, d.temperature.pre, d.divergence];
    assert vs[0] != vs[1] && vs[0] != vs[2] && vs[0] != vs[3] && vs[0] != vs[4] && vs[0] != vs[5] && vs[0] != vs[6] && vs[0] != vs[7] && vs[0] != vs[8];
    assert vs[1] != vs[2] && vs[1] != vs[3] && vs[1] != vs[4] && vs[1] != vs[5] && vs[1] != vs[6] && vs[1] != vs[7] && vs[1] != vs[8];
    assert vs[2] != vs[3] && vs[2] != vs[4] && vs[2] != vs[5] && vs[2] != vs[6] && vs[2] != vs[7] && vs[2] != vs[8];
    assert vs[3] != vs[4] && vs[3] != vs[5] && vs[3] != vs[6] && vs[3] != vs[7] && vs[3] != vs[8];
    assert vs[4] != vs[5] && vs[4] != vs[6] && vs[4] != vs[7] && vs[4] != vs[8];
    assert vs[5] != vs[6] && vs[5] != vs[7] && vs[5] != vs[8];
    assert vs[6] != vs[7] && vs[6] != vs[8];
    assert vs[7] != vs[8];
  }

  /** The schedule built so far and the roles the pairs hold after it. */
  datatype Run = Run(trace: seq<Step>, data: RenderData)

  function Emit(r: Run, p: Pass): (r': Run)
  {
    Run(r.trace + [Draw(p)], r.data)
  }

  // The pass signatures of GPGPU.cpp: which handles each one binds.

  function UpdateAdvect(r: Run, velocity: Volume, source: Volume, dest: Volume, dissipation: real): (r': Run)
  {
    Emit(r, Pass(Advection, [velocity, source], dest, false, [dissipation]))
  }

  function UpdateBuoyancy(r: Run, velocity: Volume, temperature: Volume, density: Volume, dest: Volume): (r': Run)
  {
    Emit(r, Pass(Buoyancy, [velocity, temperature, density], dest, false, []))
  }

  /** The impulse binds no texture and blends its splat into `dest`. */
  function UpdateImpulse(r: Run, dest: Volume, value: real): (r': Run)
  {
    Emit(r, Pass(AddImpulse, [], dest, true, [value]))
  }

  function ComputeDivergence(r: Run, velocity: Volume, dest: Volume): (r': Run)
  {
    Emit(r, Pass(Divergence, [velocity], dest, false, []))
  }

  function JacobiPass(r: Run, x: Volume, b: Volume, dest: Volume, alpha: real, rBeta: real): (r': Run)
  {
    Emit(r, Pass(Jacobi, [x, b], dest, false, [alpha, rBeta]))
  }

  function SubtractPressureGradient(r: Run, velocity: Volume, pressure: Volume, dest: Volume): (r': Run)
  {
    Emit(r, Pass(SubtractGradient, [velocity, pressure], dest, false, []))
  }

  function UpdateBoundary(r: Run, source: Volume, dest: Volume, scale: real): (r': Run)
  {
    Emit(r, Pass(Boundary, [source], dest, false, [scale]))
  }

  function SetDataVolume(r: Run, target: Volume, value: real): (r': Run)
  {
    Run(r.trace + [Fill(target, value)], r.data)
  }

  function SwapField(r: Run, f: Field): (r': Run)
  {
    Run(r.trace + [Swap(f)], Flip(r.data, f))
  }

  /** Advection of velocity, temperature and density, then buoyancy. */
  function AdvectFields(r: Run): (r': Run)
    ensures |r'.trace| == |r.trace| + 8
    ensures r'.data == r.data.(temperature := SwapTexture(r.data.temperature), density := SwapTexture(r.data.density))
  {
    var r1 := UpdateAdvect(r, r.data.velocity.cur, r.data.velocity.cur, r.data.velocity.pre, VelocityDissipation);
    var r2 := SwapField(r1, Velocity);
    var r3 := UpdateAdvect(r2, r2.data.velocity.cur, r2.data.temperature.cur, r2.data.temperature.pre, TemperatureDissipation);
    var r4 := SwapField(r3, Temperature);
    var r5 := UpdateAdvect(r4, r4.data.velocity.cur, r4.data.density.cur, r4.data.density.pre, DensityDissipation);
    var r6 := SwapField(r5, Density);
    var r7 := UpdateBuoyancy(r6, r6.data.velocity.cur, r6.data.temperature.cur, r6.data.density.cur, r6.data.velocity.pre);
    SwapField(r7, Velocity)
  }

  /** The two impulses, rendered in place into the current temperature and density. */
  function ImposeForce(r: Run): (r': Run)
    ensures |r'.trace| == |r.trace| + 2 && r'.data == r.data
  {
    var r1 := UpdateImpulse(r, r.data.temperature.cur, ForceTemperature);
    UpdateImpulse(r1, r1.data.density.cur, ForceDensity)
  }

  function DiffuseLoop(r: Run, n: nat, alpha: real, rBeta: real): (r': Run)
    ensures |r'.trace| == |r.trace| + 2 * n
    ensures r'.data == if n % 2 == 0 then r.data else Flip(r.data, Velocity)
    decreases n
  {
    if n == 0 then r
    else
      var r1 := JacobiPass(r, r.data.velocity.cur, r.data.velocity.cur, r.data.velocity.pre, alpha, rBeta);
      DiffuseLoop(SwapField(r1, Velocity), n - 1, alpha, rBeta)
  }

  /** Viscous diffusion, a dead branch while viscosity is 0. */
  function Diffuse(cfg: Config, r: Run): (r': Run)
    ensures |r'.trace| == |r.trace| + (if cfg.viscosity > 0.0 then 2 * Times(cfg.jacobiInter) else 0)
    ensures r'.data == if cfg.viscosity > 0.0 && Times(cfg.jacobiInter) % 2 == 1 then Flip(r.data, Velocity) else r.data
  {
    if cfg.viscosity > 0.0 then
      DiffuseLoop(r, Times(cfg.jacobiInter), CenterFactor(cfg.viscosity), StencilFactor(cfg.viscosity))
    else r
  }

  /** One Jacobi relaxation of the pressure followed by its boundary pass. */
  function PressureIteration(r: Run): (r': Run)
  {
    var r1 := JacobiPass(r, r.data.pressure.cur, r.data.divergence, r.data.pressure.pre, -Dx * Dx, PressureGradientRBeta);
    var r2 := SwapField(r1, Pressure);
    var r3 := UpdateBoundary(r2, r2.data.pressure.cur, r2.data.pressure.pre, 1.0);
    SwapField(r3, Pressure)
  }

  function PressureLoop(r: Run, n: nat): (r': Run)
    ensures |r'.trace| == |r.trace| + 4 * n
    ensures r'.data == r.data
    decreases n
  {
    if n == 0 then r else PressureLoop(PressureIteration(r), n - 1)
  }

  /** The divergence of the velocity, a cleared pressure and its Jacobi solve. */
  function SolvePressure(cfg: Config, r: Run): (r': Run)
    ensures |r'.trace| == |r.trace| + 2 + 4 * Times(cfg.jacobiInter)
    ensures r'.data == r.data
  {
    var r1 := ComputeDivergence(r, r.data.velocity.cur, r.data.divergence);
    var r2 := SetDataVolume(r1, r1.data.pressure.cur, 0.0);
    PressureLoop(r2, Times(cfg.jacobiInter))
  }

  /** Boundary, pressure-gradient subtraction and boundary again on the velocity. */
  function Project(r: Run): (r': Run)
    ensures |r'.trace| == |r.trace| + 6
    ensures r'.data == Flip(r.data, Velocity)
  {
    var r1 := UpdateBoundary(r, r.data.velocity.cur, r.data.velocity.pre, -1.0);
    var r2 := SwapField(r1, Velocity);
    var r3 := SubtractPressureGradient(r2, r2.data.velocity.cur, r2.data.pressure.cur, r2.data.velocity.pre);
    var r4 := SwapField(r3, Velocity);
    var r5 := UpdateBoundary(r4, r4.data.velocity.cur, r4.data.velocity.pre, -1.0);
    SwapField(r5, Velocity)
  }

  /** GPGPU::updateData: the schedule of one step and the roles after it. */
  function UpdateData(cfg: Config, data: RenderData): (r: Run)
    ensures |r.trace| == 18 + 4 * Times(cfg.jacobiInter) + (if cfg.viscosity > 0.0 then 2 * Times(cfg.jacobiInter) else 0)
    ensures r.data.divergence == data.divergence
  {
    Project(SolvePressure(cfg, Diffuse(cfg, ImposeForce(AdvectFields(Run([], data))))))
  }

  // What the schedule computes: a symbolic semantics of the trace.

  /** The content of a volume, as the passes that produced it. */
  datatype Term =
    | Init(v: Volume)                                              // what the volume held before
    | Const(value: real)                                           // a fill by setDataVolume
    | Out(program: Program, args: seq<real>, inputs: seq<Term>)    // a pass over the contents it combined

  /** The roles of the pairs and what every written volume holds. */
  datatype Machine = Machine(data: RenderData, mem: map<Volume, Term>)

  function Content(mem: map<Volume, Term>, v: Volume): (t: Term)
  {
    if v in mem then mem[v] else Init(v)
  }

  function Contents(mem: map<Volume, Term>, vs: seq<Volume>): (ts: seq<Term>)
  {
    seq(|vs|, i requires 0 <= i < |vs| => Content(mem, vs[i]))
  }

  /** A draw combines the textures it samples (and, when blending, what its target held). */
  function Exec(m: Machine, s: Step): (m': Machine)
  {
    match s
    case Draw(p) =>
      var inputs := Contents(m.mem, p.sources) + (if p.blend then [Content(m.mem, p.dest)] else []);
      Machine(m.data, m.mem[p.dest := Out(p.program, p.args, inputs)])
    case Fill(v, x) => Machine(m.data, m.mem[v := Const(x)])
    case Swap(f) => Machine(Flip(m.data, f), m.mem)
  }

  function Replay(m: Machine, t: seq<Step>): (m': Machine)
    decreases |t|
  {
    if t == [] then m else Exec(Replay(m, t[..|t| - 1]), t[|t| - 1])
  }

  function Start(data: RenderData): (m: Machine)
  {
    Machine(data, map[])
  }

  /** What the current volume of every field holds. */
  datatype Snapshot = Snapshot(velocity: Term, density: Term, pressure: Term, temperature: Term, divergence: Term)

  function View(m: Machine): (c: Snapshot)
  {
    Snapshot(Content(m.mem, m.data.velocity.cur), Content(m.mem, m.data.density.cur),
             Content(m.mem, m.data.pressure.cur), Content(m.mem, m.data.temperature.cur),
             Content(m.mem, m.data.divergence))
  }

  /** A pass that samples the texture it renders into. */
  predicate Hazard(s: Step)
  {
    s.Draw? && s.pass.dest in s.pass.sources
  }

  predicate HazardFree(t: seq<Step>)
  {
    forall i :: 0 <= i < |t| ==> !Hazard(t[i])
  }

  /** Replaying `r` from `s0` leaves the roles `r` records and the contents `c`. */
  predicate Tracks(s0: Machine, r: Run, c: Snapshot)
  {
    var m := Replay(s0, r.trace);
    m.data == r.data && View(m) == c && Distinct(r.data) && HazardFree(r.trace)
  }

  /** Replaying one more step executes it on the state the trace reached. */
  lemma ReplayAppend(s0: Machine)
    ensures forall t: seq<Step>, x: Step :: Replay(s0, t + [x]) == Exec(Replay(s0, t), x)
    ensures forall t: seq<Step>, x: Step :: HazardFree(t) && !Hazard(x) ==> HazardFree(t + [x])
  {
    forall t: seq<Step>, x: Step
      ensures Replay(s0, t + [x]) == Exec(Replay(s0, t), x)
    {
      assert (t + [x])[..|t|] == t;
    }
  }

  function Held(c: Snapshot, f: Field): (t: Term)
  {
    match f
    case Velocity => c.velocity
    case Density => c.density
    case Pressure => c.pressure
    case Temperature => c.temperature
  }

  function Put(c: Snapshot, f: Field, t: Term): (c': Snapshot)
  {
    match f
    case Velocity => c.(velocity := t)
    case Density => c.(density := t)
    case Pressure => c.(pressure := t)
    case Temperature => c.(temperature := t)
  }

  /** Swapping roles keeps the nine handles apart. */
  lemma FlipDistinct(d: RenderData, f: Field)
    requires Distinct(d)
    ensures Distinct(Flip(d, f))
  {
    assert Handles(SwapTexture(Of(d, f))) == Handles(Of(d, f));
  }

  lemma SampleOne(mem: map<Volume, Term>, a: Volume, x: Term)
    requires Content(mem, a) == x
    ensures Contents(mem, [a]) == [x]
  {
  }

  lemma SampleTwo(mem: map<Volume, Term>, a: Volume, b: Volume, x: Term, y: Term)
    requires Content(mem, a) == x && Content(mem, b) == y
    ensures Contents(mem, [a, b]) == [x, y]
  {
  }

  lemma SampleThree(mem: map<Volume, Term>, a: Volume, b: Volume, e: Volume, x: Term, y: Term, z: Term)
    requires Content(mem, a) == x && Content(mem, b) == y && Content(mem, e) == z
    ensures Contents(mem, [a, b, e]) == [x, y, z]
  {
  }

  /** A pass into the back volume of `f` followed by the swap makes its output current. */
  lemma PassSwap(s0: Machine, r: Run, p: Pass, f: Field, c: Snapshot, ins: seq<Term>)
    requires Tracks(s0, r, c)
    requires p.dest == Of(r.data, f).pre && !p.blend && p.dest !in p.sources
    requires Contents(Replay(s0, r.trace).mem, p.sources) == ins
    ensures Tracks(s0, SwapField(Emit(r, p), f), Put(c, f, Out(p.program, p.args, ins)))
  {
    ReplayAppend(s0);
    FlipDistinct(r.data, f);
    var m := Replay(s0, r.trace);
    var t := Out(p.program, p.args, ins);
    var r1 := Emit(r, p);
    var r2 := SwapField(r1, f);
    assert ins + [] == ins;
    assert Replay(s0, r1.trace) == Machine(r.data, m.mem[p.dest := t]);
    var m2 := Replay(s0, r2.trace);
    assert m2 == Machine(Flip(r.data, f), m.mem[p.dest := t]);
    assert HazardFree(r2.trace);
    match f
    case Velocity => assert View(m2) == Put(c, f, t);
    case Density => assert View(m2) == Put(c, f, t);
    case Pressure => assert View(m2) == Put(c, f, t);
    case Temperature => assert View(m2) == Put(c, f, t);
  }

  lemma ProjectComputes(s0: Machine, r: Run, c: Snapshot)
    requires Tracks(s0, r, c)
    ensures Tracks(s0, Project(r), c.(velocity := Out(Boundary, [-1.0], [Out(SubtractGradient, [], [Out(Boundary, [-1.0], [c.velocity]), c.pressure])])))
  {
    var v1 := Out(Boundary, [-1.0], [c.velocity]);
    var v2 := Out(SubtractGradient, [], [v1, c.pressure]);
    var d := r.data;
    var r2 := SwapField(UpdateBoundary(r, d.velocity.cur, d.velocity.pre, -1.0), Velocity);
    SampleOne(Replay(s0, r.trace).mem, d.velocity.cur, c.velocity);
    PassSwap(s0, r, Pass(Boundary, [d.velocity.cur], d.velocity.pre, false, [-1.0]), Velocity, c, [c.velocity]);
    var c2 := c.(velocity := v1);
    var d2 := r2.data;
    var r4 := SwapField(SubtractPressureGradient(r2, d2.velocity.cur, d2.pressure.cur, d2.velocity.pre), Velocity);
    SampleTwo(Replay(s0, r2.trace).mem, d2.velocity.cur, d2.pressure.cur, v1, c.pressure);
    PassSwap(s0, r2, Pass(SubtractGradient, [d2.velocity.cur, d2.pressure.cur], d2.velocity.pre, false, []), Velocity, c2, [v1, c.pressure]);
    var c4 := c.(velocity := v2);
    var d4 := r4.data;
    SampleOne(Replay(s0, r4.trace).mem, d4.velocity.cur, v2);
    PassSwap(s0, r4, Pass(Boundary, [d4.velocity.cur], d4.velocity.pre, false, [-1.0]), Velocity, c4, [v2]);
  }

  /** A blended pass into the current volume of `f` combines its splat with what it held. */
  lemma BlendInPlace(s0: Machine, r: Run, p: Pass, f: Field, c: Snapshot)
    requires Tracks(s0, r, c)
    requires p.dest == Of(r.data, f).cur && p.blend && p.sources == []
    ensures Tracks(s0, Emit(r, p), Put(c, f, Out(p.program, p.args, [Held(c, f)])))
  {
    ReplayAppend(s0);
    var m := Replay(s0, r.trace);
    var t := Out(p.program, p.args, [Held(c, f)]);
    var r1 := Emit(r, p);
    assert Contents(m.mem, []) + [Content(m.mem, p.dest)] == [Held(c, f)] by {
      match f
      case Velocity =>
      case Density =>
      case Pressure =>
      case Temperature =>
    }
    var m1 := Replay(s0, r1.trace);
    assert m1 == Machine(r.data, m.mem[p.dest := t]);
    assert HazardFree(r1.trace);
    match f
    case Velocity => assert View(m1) == Put(c, f, t);
    case Density => assert View(m1) == Put(c, f, t);
    case Pressure => assert View(m1) == Put(c, f, t);
    case Temperature => assert View(m1) == Put(c, f, t);
  }

  lemma AdvectFieldsComputes(s0: Machine, r: Run, c: Snapshot)
    requires Tracks(s0, r, c)
    ensures var v1 := Out(Advection, [VelocityDissipation], [c.velocity, c.velocity]);
            var t1 := Out(Advection, [TemperatureDissipation], [v1, c.temperature]);
            var d1 := Out(Advection, [DensityDissipation], [v1, c.density]);
            Tracks(s0, AdvectFields(r), c.(velocity := Out(Buoyancy, [], [v1, t1, d1]), temperature := t1, density := d1))
  {
    var v1 := Out(Advection, [VelocityDissipation], [c.velocity, c.velocity]);
    var t1 := Out(Advection, [TemperatureDissipation], [v1, c.temperature]);
    var d1 := Out(Advection, [DensityDissipation], [v1, c.density]);
    var d0 := r.data;
    var r2 := SwapField(UpdateAdvect(r, d0.velocity.cur, d0.velocity.cur, d0.velocity.pre, VelocityDissipation), Velocity);
    SampleTwo(Replay(s0, r.trace).mem, d0.velocity.cur, d0.velocity.cur, c.velocity, c.velocity);
    PassSwap(s0, r, Pass(Advection, [d0.velocity.cur, d0.velocity.cur], d0.velocity.pre, false, [VelocityDissipation]), Velocity, c, [c.velocity, c.velocity]);
    var c2 := c.(velocity := v1);
    var d2 := r2.data;
    var r4 := SwapField(UpdateAdvect(r2, d2.velocity.cur, d2.temperature.cur, d2.temperature.pre, TemperatureDissipation), Temperature);
    SampleTwo(Replay(s0, r2.trace).mem, d2.velocity.cur, d2.temperature.cur, v1, c.temperature);
    PassSwap(s0, r2, Pass(Advection, [d2.velocity.cur, d2.temperature.cur], d2.temperature.pre, false, [TemperatureDissipation]), Temperature, c2, [v1, c.temperature]);
    var c4 := c2.(temperature := t1);
    var d4 := r4.data;
    var r6 := SwapField(UpdateAdvect(r4, d4.velocity.cur, d4.density.cur, d4.density.pre, DensityDissipation), Density);
    SampleTwo(Replay(s0, r4.trace).mem, d4.velocity.cur, d4.density.cur, v1, c.density);
    PassSwap(s0, r4, Pass(Advection, [d4.velocity.cur, d4.density.cur], d4.density.pre, false, [DensityDissipation]), Density, c4, [v1, c.density]);
    var c6 := c4.(density := d1);
    var d6 := r6.data;
    SampleThree(Replay(s0, r6.trace).mem, d6.velocity.cur, d6.temperature.cur, d6.density.cur, v1, t1, d1);
    PassSwap(s0, r6, Pass(Buoyancy, [d6.velocity.cur, d6.temperature.cur, d6.density.cur], d6.velocity.pre, false, []), Velocity, c6, [v1, t1, d1]);
  }

  lemma ImposeForceComputes(s0: Machine, r: Run, c: Snapshot)
    requires Tracks(s0, r, c)
    ensures Tracks(s0, ImposeForce(r), c.(temperature := Out(AddImpulse, [ForceTemperature], [c.temperature]),
                                          density := Out(AddImpulse, [ForceDensity], [c.density])))
  {
    var r1 := UpdateImpulse(r, r.data.temperature.cur, ForceTemperature);
    BlendInPlace(s0, r, Pass(AddImpulse, [], r.data.temperature.cur, true, [ForceTemperature]), Temperature, c);
    var c1 := c.(temperature := Out(AddImpulse, [ForceTemperature], [c.temperature]));
    BlendInPlace(s0, r1, Pass(AddImpulse, [], r1.data.density.cur, true, [ForceDensity]), Density, c1);
  }

  /** n rounds of viscous Jacobi relaxation of a velocity. */
  function Diffused(v: Term, n: nat, alpha: real, rBeta: real): (t: Term)
    decreases n
  {
    if n == 0 then v else Diffused(Out(Jacobi, [alpha, rBeta], [v, v]), n - 1, alpha, rBeta)
  }

  /** n rounds of pressure relaxation against the divergence q, each followed by the boundary pass. */
  function Relaxed(p: Term, q: Term, n: nat): (t: Term)
    decreases n
  {
    if n == 0 then p
    else Relaxed(Out(Boundary, [1.0], [Out(Jacobi, [-Dx * Dx, PressureGradientRBeta], [p, q])]), q, n - 1)
  }

  lemma {:induction false} DiffuseLoopComputes(s0: Machine, r: Run, n: nat, alpha: real, rBeta: real, c: Snapshot)
    requires Tracks(s0, r, c)
    ensures Tracks(s0, DiffuseLoop(r, n, alpha, rBeta), c.(velocity := Diffused(c.velocity, n, alpha, rBeta)))
    decreases n
  {
    if n > 0 {
      var d := r.data;
      var r2 := SwapField(JacobiPass(r, d.velocity.cur, d.velocity.cur, d.velocity.pre, alpha, rBeta), Velocity);
      SampleTwo(Replay(s0, r.trace).mem, d.velocity.cur, d.velocity.cur, c.velocity, c.velocity);
      PassSwap(s0, r, Pass(Jacobi, [d.velocity.cur, d.velocity.cur], d.velocity.pre, false, [alpha, rBeta]), Velocity, c, [c.velocity, c.velocity]);
      DiffuseLoopComputes(s0, r2, n - 1, alpha, rBeta, c.(velocity := Out(Jacobi, [alpha, rBeta], [c.velocity, c.velocity])));
    }
  }

  lemma PressureIterationComputes(s0: Machine, r: Run, c: Snapshot)
    requires Tracks(s0, r, c)
    ensures var p1 := Out(Jacobi, [-Dx * Dx, PressureGradientRBeta], [c.pressure, c.divergence]);
            Tracks(s0, PressureIteration(r), c.(pressure := Out(Boundary, [1.0], [p1])))
  {
    var p1 := Out(Jacobi, [-Dx * Dx, PressureGradientRBeta], [c.pressure, c.divergence]);
    var d := r.data;
    var r2 := SwapField(JacobiPass(r, d.pressure.cur, d.divergence, d.pressure.pre, -Dx * Dx, PressureGradientRBeta), Pressure);
    SampleTwo(Replay(s0, r.trace).mem, d.pressure.cur, d.divergence, c.pressure, c.divergence);
    PassSwap(s0, r, Pass(Jacobi, [d.pressure.cur, d.divergence], d.pressure.pre, false, [-Dx * Dx, PressureGradientRBeta]), Pressure, c, [c.pressure, c.divergence]);
    var d2 := r2.data;
    SampleOne(Replay(s0, r2.trace).mem, d2.pressure.cur, p1);
    PassSwap(s0, r2, Pass(Boundary, [d2.pressure.cur], d2.pressure.pre, false, [1.0]), Pressure, c.(pressure := p1), [p1]);
  }

  lemma {:induction false} PressureLoopComputes(s0: Machine, r: Run, n: nat, c: Snapshot)
    requires Tracks(s0, r, c)
    ensures Tracks(s0, PressureLoop(r, n), c.(pressure := Relaxed(c.pressure, c.divergence, n)))
    decreases n
  {
    if n > 0 {
      PressureIterationComputes(s0, r, c);
      var p1 := Out(Jacobi, [-Dx * Dx, PressureGradientRBeta], [c.pressure, c.divergence]);
      PressureLoopComputes(s0, PressureIteration(r), n - 1, c.(pressure := Out(Boundary, [1.0], [p1])));
    }
  }

  lemma SolvePressureComputes(s0: Machine, cfg: Config, r: Run, c: Snapshot)
    requires Tracks(s0, r, c)
    ensures var q := Out(Divergence, [], [c.velocity]);
            Tracks(s0, SolvePressure(cfg, r), c.(divergence := q, pressure := Relaxed(Const(0.0), q, Times(cfg.jacobiInter))))
  {
    ReplayAppend(s0);
    var q := Out(Divergence, [], [c.velocity]);
    var d := r.data;
    var m := Replay(s0, r.trace);
    var r1 := ComputeDivergence(r, d.velocity.cur, d.divergence);
    SampleOne(m.mem, d.velocity.cur, c.velocity);
    assert [c.velocity] + [] == [c.velocity];
    var m1 := Replay(s0, r1.trace);
    assert m1 == Machine(d, m.mem[d.divergence := q]);
    assert Tracks(s0, r1, c.(divergence := q));
    var r2 := SetDataVolume(r1, d.pressure.cur, 0.0);
    var m2 := Replay(s0, r2.trace);
    assert m2 == Machine(d, m1.mem[d.pressure.cur := Const(0.0)]);
    assert Tracks(s0, r2, c.(divergence := q, pressure := Const(0.0)));
    PressureLoopComputes(s0, r2, Times(cfg.jacobiInter), c.(divergence := q, pressure := Const(0.0)));
  }

  lemma DiffuseComputes(s0: Machine, cfg: Config, r: Run, c: Snapshot)
    requires Tracks(s0, r, c)
    ensures Tracks(s0, Diffuse(cfg, r), if cfg.viscosity > 0.0 then
              c.(velocity := Diffused(c.velocity, Times(cfg.jacobiInter), CenterFactor(cfg.viscosity), StencilFactor(cfg.viscosity)))
            else c)
  {
    if cfg.viscosity > 0.0 {
      DiffuseLoopComputes(s0, r, Times(cfg.jacobiInter), CenterFactor(cfg.viscosity), StencilFactor(cfg.viscosity), c);
    }
  }

  /**
   * The step as the equations of the method write it, over the contents `c`
   * the current volumes hold: velocity is advected by itself; temperature and
   * density are advected by the new velocity; buoyancy reads all three; the
   * impulses are alpha-blended in place into temperature and density; the
   * pressure starts from zero and is relaxed against the divergence of the
   * (diffused) velocity; the velocity then gets a boundary pass, loses the
   * pressure gradient and gets a second boundary pass.
   */
  function Expected(cfg: Config, c: Snapshot): (c': Snapshot)
  {
    var v1 := Out(Advection, [VelocityDissipation], [c.velocity, c.velocity]);
    var t1 := Out(Advection, [TemperatureDissipation], [v1, c.temperature]);
    var d1 := Out(Advection, [DensityDissipation], [v1, c.density]);
    var v2 := Out(Buoyancy, [], [v1, t1, d1]);
    var v3 := if cfg.viscosity > 0.0
      then Diffused(v2, Times(cfg.jacobiInter), CenterFactor(cfg.viscosity), StencilFactor(cfg.viscosity))
      else v2;
    var q := Out(Divergence, [], [v3]);
    var p := Relaxed(Const(0.0), q, Times(cfg.jacobiInter));
    var v4 := Out(Boundary, [-1.0], [v3]);
    var v5 := Out(SubtractGradient, [], [v4, p]);
    Snapshot(Out(Boundary, [-1.0], [v5]), Out(AddImpulse, [ForceDensity], [d1]), p,
             Out(AddImpulse, [ForceTemperature], [t1]), q)
  }

  /**
   * With distinct handles, replaying the schedule of updateData leaves in the
   * current volumes exactly what the equations of the step prescribe, the
   * roles it records are the roles the swaps produce, and no pass samples
   * the texture it renders into.
   */
  lemma UpdateDataComputes(cfg: Config, data: RenderData)
    requires Distinct(data)
    ensures var r := UpdateData(cfg, data);
            var m := Replay(Start(data), r.trace);
            m.data == r.data && View(m) == Expected(cfg, View(Start(data))) && HazardFree(r.trace)
  {
    var s0 := Start(data);
    var c := View(s0);
    var r := Run([], data);
    assert Tracks(s0, r, c);
    AdvectFieldsComputes(s0, r, c);
    var r1 := AdvectFields(r);
    var v1 := Out(Advection, [VelocityDissipation], [c.velocity, c.velocity]);
    var t1 := Out(Advection, [TemperatureDissipation], [v1, c.temperature]);
    var d1 := Out(Advection, [DensityDissipation], [v1, c.density]);
    var c1 := c.(velocity := Out(Buoyancy, [], [v1, t1, d1]), temperature := t1, density := d1);
    ImposeForceComputes(s0, r1, c1);
    var r2 := ImposeForce(r1);
    var c2 := c1.(temperature := Out(AddImpulse, [ForceTemperature], [t1]), density := Out(AddImpulse, [ForceDensity], [d1]));
    DiffuseComputes(s0, cfg, r2, c2);
    var r3 := Diffuse(cfg, r2);
    var c3 := if cfg.viscosity > 0.0 then
        c2.(velocity := Diffused(c2.velocity, Times(cfg.jacobiInter), CenterFactor(cfg.viscosity), StencilFactor(cfg.viscosity)))
      else c2;
    SolvePressureComputes(s0, cfg, r3, c3);
    var r4 := SolvePressure(cfg, r3);
    var q := Out(Divergence, [], [c3.velocity]);
    var c4 := c3.(divergence := q, pressure := Relaxed(Const(0.0), q, Times(cfg.jacobiInter)));
    ProjectComputes(s0, r4, c4);
  }

  // The order of the passes and the parity of the swaps.

  /** A step with its handles erased. */
  datatype Kind = Ran(program: Program) | Cleared | Swapped(field: Field)

  function KindOf(s: Step): (k: Kind)
  {
    match s
    case Draw(p) => Ran(p.program)
    case Fill(_, _) => Cleared
    case Swap(f) => Swapped(f)
  }

  function Shape(t: seq<Step>): (ks: seq<Kind>)
  {
    seq(|t|, i requires 0 <= i < |t| => KindOf(t[i]))
  }

  function Repeat<T>(b: seq<T>, n: nat): (s: seq<T>)
    decreases n
  {
    if n == 0 then [] else b + Repeat(b, n - 1)
  }

  /** How many times the trace swaps the pair of `f`. */
  function Swaps(t: seq<Step>, f: Field): (n: nat)
  {
    multiset(Shape(t))[Swapped(f)]
  }

  /** A pair after n swaps. */
  function Repeatedly(p: Duo, n: nat): (q: Duo)
  {
    if n % 2 == 0 then p else SwapTexture(p)
  }

  /**
   * The order updateData issues its passes in: advect velocity, temperature
   * and density (each swapped), buoyancy, the two in-place impulses, the
   * diffusion loop when viscosity is positive, divergence, the pressure
   * clear, the pressure loop, and boundary / gradient / boundary on the
   * velocity, each swapped.
   */
  function Schedule(cfg: Config): (ks: seq<Kind>)
  {
    AdvectKinds + ForceKinds + DiffuseKinds(cfg) + PressureKinds(cfg) + ProjectKinds
  }

  const AdvectKinds: seq<Kind> :=
    [Ran(Advection), Swapped(Velocity), Ran(Advection), Swapped(Temperature),
     Ran(Advection), Swapped(Density), Ran(Buoyancy), Swapped(Velocity)]

  const ForceKinds: seq<Kind> := [Ran(AddImpulse), Ran(AddImpulse)]

  function DiffuseKinds(cfg: Config): (ks: seq<Kind>)
  {
    if cfg.viscosity > 0.0 then Repeat([Ran(Jacobi), Swapped(Velocity)], Times(cfg.jacobiInter)) else []
  }

  function PressureKinds(cfg: Config): (ks: seq<Kind>)
  {
    [Ran(Divergence), Cleared] + Repeat([Ran(Jacobi), Swapped(Pressure), Ran(Boundary), Swapped(Pressure)], Times(cfg.jacobiInter))
  }

  const ProjectKinds: seq<Kind> :=
    [Ran(Boundary), Swapped(Velocity), Ran(SubtractGradient), Swapped(Velocity), Ran(Boundary), Swapped(Velocity)]

  lemma ShapeAppend()
    ensures forall t: seq<Step>, x: Step :: Shape(t + [x]) == Shape(t) + [KindOf(x)]
  {
  }

  lemma ShapeConcat(a: seq<Step>, b: seq<Step>)
    ensures Shape(a + b) == Shape(a) + Shape(b)
  {
  }

  lemma AdvectFieldsShape(r: Run)
    ensures Shape(AdvectFields(r).trace) == Shape(r.trace) + AdvectKinds
  {
    var t := r.trace;
    var d := r.data;
    var r1 := UpdateAdvect(r, d.velocity.cur, d.velocity.cur, d.velocity.pre, VelocityDissipation);
    var r2 := SwapField(r1, Velocity);
    var r3 := UpdateAdvect(r2, r2.data.velocity.cur, r2.data.temperature.cur, r2.data.temperature.pre, TemperatureDissipation);
    var r4 := SwapField(r3, Temperature);
    var r5 := UpdateAdvect(r4, r4.data.velocity.cur, r4.data.density.cur, r4.data.density.pre, DensityDissipation);
    var r6 := SwapField(r5, Density);
    var r7 := UpdateBuoyancy(r6, r6.data.velocity.cur, r6.data.temperature.cur, r6.data.density.cur, r6.data.velocity.pre);
    var r8 := SwapField(r7, Velocity);
    var seg := r8.trace[|t|..];
    assert r8.trace == t + seg;
    assert Shape(seg) == AdvectKinds;
    ShapeConcat(t, seg);
  }

  lemma ImposeForceShape(r: Run)
    ensures Shape(ImposeForce(r).trace) == Shape(r.trace) + ForceKinds
  {
    var seg := ImposeForce(r).trace[|r.trace|..];
    assert ImposeForce(r).trace == r.trace + seg;
    ShapeConcat(r.trace, seg);
  }

  lemma ProjectShape(r: Run)
    ensures Shape(Project(r).trace) == Shape(r.trace) + ProjectKinds
  {
    var t := r.trace;
    var r2 := SwapField(UpdateBoundary(r, r.data.velocity.cur, r.data.velocity.pre, -1.0), Velocity);
    var r4 := SwapField(SubtractPressureGradient(r2, r2.data.velocity.cur, r2.data.pressure.cur, r2.data.velocity.pre), Velocity);
    var r6 := SwapField(UpdateBoundary(r4, r4.data.velocity.cur, r4.data.velocity.pre, -1.0), Velocity);
    var seg := r6.trace[|t|..];
    assert r6.trace == t + seg;
    assert Shape(seg) == ProjectKinds;
    ShapeConcat(t, seg);
  }

  lemma {:induction false} DiffuseLoopShape(r: Run, n: nat, alpha: real, rBeta: real)
    ensures Shape(DiffuseLoop(r, n, alpha, rBeta).trace) == Shape(r.trace) + Repeat([Ran(Jacobi), Swapped(Velocity)], n)
    decreases n
  {
    if n > 0 {
      var d := r.data;
      var r2 := SwapField(JacobiPass(r, d.velocity.cur, d.velocity.cur, d.velocity.pre, alpha, rBeta), Velocity);
      ShapeConcat(r.trace, r2.trace[|r.trace|..]);
      assert r2.trace == r.trace + r2.trace[|r.trace|..];
      DiffuseLoopShape(r2, n - 1, alpha, rBeta);
    } else {
      assert Shape(r.trace) + [] == Shape(r.trace);
    }
  }

  /** One iteration of the pressure loop, on the pressure pair (a, b) and divergence q. */
  function PressureBlock(a: Volume, b: Volume, q: Volume): (t: seq<Step>)
  {
    [Draw(Pass(Jacobi, [a, q], b, false, [-Dx * Dx, PressureGradientRBeta])), Swap(Pressure),
     Draw(Pass(Boundary, [b], a, false, [1.0])), Swap(Pressure)]
  }

  /**
   * Every iteration of the pressure loop relaxes from the current pressure
   * into the back volume, swaps, writes the boundary pass back into the
   * first volume and swaps again, so each one issues the same four steps on
   * the same handles and the pair ends where it started.
   */
  lemma {:induction false} PressureLoopSteps(r: Run, n: nat)
    ensures PressureLoop(r, n).trace == r.trace + Repeat(PressureBlock(r.data.pressure.cur, r.data.pressure.pre, r.data.divergence), n)
    decreases n
  {
    var b := PressureBlock(r.data.pressure.cur, r.data.pressure.pre, r.data.divergence);
    if n > 0 {
      var r1 := PressureIteration(r);
      assert r1.trace == r.trace + b && r1.data == r.data;
      PressureLoopSteps(r1, n - 1);
    } else {
      assert r.trace + [] == r.trace;
    }
  }

  lemma {:induction false} ShapeRepeat(b: seq<Step>, n: nat)
    ensures Shape(Repeat(b, n)) == Repeat(Shape(b), n)
    decreases n
  {
    if n > 0 {
      ShapeConcat(b, Repeat(b, n - 1));
      ShapeRepeat(b, n - 1);
    }
  }

  lemma SolvePressureShape(cfg: Config, r: Run)
    ensures Shape(SolvePressure(cfg, r).trace) == Shape(r.trace) + PressureKinds(cfg)
  {
    var d := r.data;
    var r2 := SetDataVolume(ComputeDivergence(r, d.velocity.cur, d.divergence), d.pressure.cur, 0.0);
    var seg := r2.trace[|r.trace|..];
    assert r2.trace == r.trace + seg;
    ShapeConcat(r.trace, seg);
    assert Shape(seg) == [Ran(Divergence), Cleared];
    var b := PressureBlock(d.pressure.cur, d.pressure.pre, d.divergence);
    PressureLoopSteps(r2, Times(cfg.jacobiInter));
    ShapeConcat(r2.trace, Repeat(b, Times(cfg.jacobiInter)));
    ShapeRepeat(b, Times(cfg.jacobiInter));
    assert Shape(b) == [Ran(Jacobi), Swapped(Pressure), Ran(Boundary), Swapped(Pressure)];
    assert SolvePressure(cfg, r).trace == r2.trace + Repeat(b, Times(cfg.jacobiInter));
  }

  /** updateData issues its passes in the order of Schedule. */
  lemma PassOrder(cfg: Config, data: RenderData)
    ensures Shape(UpdateData(cfg, data).trace) == Schedule(cfg)
  {
    var r1 := AdvectFields(Run([], data));
    AdvectFieldsShape(Run([], data));
    assert Shape([]) + AdvectKinds == AdvectKinds;
    var r2 := ImposeForce(r1);
    ImposeForceShape(r1);
    var r3 := Diffuse(cfg, r2);
    if cfg.viscosity > 0.0 {
      DiffuseLoopShape(r2, Times(cfg.jacobiInter), CenterFactor(cfg.viscosity), StencilFactor(cfg.viscosity));
    } else {
      assert Shape(r3.trace) == Shape(r2.trace) + DiffuseKinds(cfg);
    }
    var r4 := SolvePressure(cfg, r3);
    SolvePressureShape(cfg, r3);
    ProjectShape(r4);
  }

  lemma {:induction false} RepeatCount<T>(b: seq<T>, n: nat, k: T)
    ensures multiset(Repeat(b, n))[k] == n * multiset(b)[k]
    decreases n
  {
    if n > 0 {
      var c := multiset(b)[k];
      RepeatCount(b, n - 1, k);
      assert multiset(b + Repeat(b, n - 1))[k] == c + (n - 1) * c;
      assert c + (n - 1) * c == n * c;
    }
  }

  /** The multiset of kinds of the schedule, stage by stage. */
  lemma ScheduleKinds(cfg: Config)
    ensures multiset(Schedule(cfg)) == multiset(AdvectKinds) + multiset(ForceKinds) + multiset(DiffuseKinds(cfg))
      + multiset([Ran(Divergence), Cleared])
      + multiset(Repeat([Ran(Jacobi), Swapped(Pressure), Ran(Boundary), Swapped(Pressure)], Times(cfg.jacobiInter)))
      + multiset(ProjectKinds)
  {
  }

  // How often each fixed stage swaps each pair.

  lemma AdvectSwaps()
    ensures multiset(AdvectKinds)[Swapped(Velocity)] == 2 && multiset(AdvectKinds)[Swapped(Temperature)] == 1
    ensures multiset(AdvectKinds)[Swapped(Density)] == 1 && multiset(AdvectKinds)[Swapped(Pressure)] == 0
  {
  }

  lemma ProjectSwaps()
    ensures multiset(ProjectKinds)[Swapped(Velocity)] == 3 && multiset(ProjectKinds)[Swapped(Temperature)] == 0
    ensures multiset(ProjectKinds)[Swapped(Density)] == 0 && multiset(ProjectKinds)[Swapped(Pressure)] == 0
  {
  }

  lemma LoopSwaps(f: Field)
    ensures multiset(ForceKinds)[Swapped(f)] == 0 && multiset([Ran(Divergence), Cleared])[Swapped(f)] == 0
    ensures multiset([Ran(Jacobi), Swapped(Velocity)])[Swapped(f)] == if f == Velocity then 1 else 0
    ensures multiset([Ran(Jacobi), Swapped(Pressure), Ran(Boundary), Swapped(Pressure)])[Swapped(f)] == if f == Pressure then 2 else 0
  {
  }

  /**
   * Velocity is swapped five times (plus once per diffusion round when
   * viscosity is positive), temperature and density once, pressure twice
   * per pressure iteration.
   */
  lemma SwapCounts(cfg: Config, data: RenderData)
    ensures var t := UpdateData(cfg, data).trace;
            var n := Times(cfg.jacobiInter);
            && Swaps(t, Velocity) == 5 + (if cfg.viscosity > 0.0 then n else 0)
            && Swaps(t, Temperature) == 1
            && Swaps(t, Density) == 1
            && Swaps(t, Pressure) == 2 * n
  {
    PassOrder(cfg, data);
    ScheduleKinds(cfg);
    AdvectSwaps();
    ProjectSwaps();
    LoopSwaps(Velocity);
    LoopSwaps(Temperature);
    LoopSwaps(Density);
    LoopSwaps(Pressure);
    var n := Times(cfg.jacobiInter);
    var dk := [Ran(Jacobi), Swapped(Velocity)];
    var pk := [Ran(Jacobi), Swapped(Pressure), Ran(Boundary), Swapped(Pressure)];
    RepeatCount(pk, n, Swapped(Velocity));
    RepeatCount(pk, n, Swapped(Pressure));
    RepeatCount(pk, n, Swapped(Temperature));
    RepeatCount(pk, n, Swapped(Density));
    if cfg.viscosity > 0.0 {
      RepeatCount(dk, n, Swapped(Velocity));
      RepeatCount(dk, n, Swapped(Pressure));
      RepeatCount(dk, n, Swapped(Temperature));
      RepeatCount(dk, n, Swapped(Density));
    }
  }

  lemma StepRoles(cfg: Config, data: RenderData)
    ensures var n := Times(cfg.jacobiInter);
            var v := if cfg.viscosity > 0.0 && n % 2 == 1 then data.velocity else SwapTexture(data.velocity);
            UpdateData(cfg, data).data == RenderData(v, SwapTexture(data.density), data.pressure, SwapTexture(data.temperature), data.divergence)
  {
  }

  /** The parity argument, over any trace with the swap counts of one step. */
  lemma RolesFromCounts(data: RenderData, after: RenderData, t: seq<Step>, n: nat, viscous: bool)
    requires after == RenderData(if viscous && n % 2 == 1 then data.velocity else SwapTexture(data.velocity),
                                 SwapTexture(data.density), data.pressure, SwapTexture(data.temperature), data.divergence)
    requires Swaps(t, Velocity) == 5 + (if viscous then n else 0) && Swaps(t, Temperature) == 1
    requires Swaps(t, Density) == 1 && Swaps(t, Pressure) == 2 * n
    ensures forall f :: Of(after, f) == Repeatedly(Of(data, f), Swaps(t, f)) && Handles(Of(after, f)) == Handles(Of(data, f))
  {
    forall f
      ensures Of(after, f) == Repeatedly(Of(data, f), Swaps(t, f)) && Handles(Of(after, f)) == Handles(Of(data, f))
    {
      assert Handles(SwapTexture(Of(data, f))) == Handles(Of(data, f));
    }
  }

  /**
   * The roles updateData leaves are the roles its swaps produce: each pair
   * ends exchanged exactly when its swap count is odd, so the set {cur, pre}
   * of every field is unchanged, and so is the divergence volume.
   */
  lemma RolesFollowSwaps(cfg: Config, data: RenderData)
    ensures var r := UpdateData(cfg, data);
            forall f :: Of(r.data, f) == Repeatedly(Of(data, f), Swaps(r.trace, f)) && Handles(Of(r.data, f)) == Handles(Of(data, f))
    ensures UpdateData(cfg, data).data.divergence == data.divergence
  {
    SwapCounts(cfg, data);
    StepRoles(cfg, data);
    var r := UpdateData(cfg, data);
    RolesFromCounts(data, r.data, r.trace, Times(cfg.jacobiInter), cfg.viscosity > 0.0);
  }

  /**
   * With the program's settings (30 Jacobi iterations, no viscosity) one
   * step swaps velocity 5 times, temperature and density once and pressure
   * 60 times: velocity, temperature and density end exchanged and pressure
   * ends as it began.
   */
  lemma DefaultStep(data: RenderData)
    ensures var r := UpdateData(Default, data);
            && Swaps(r.trace, Velocity) == 5 && Swaps(r.trace, Temperature) == 1
            && Swaps(r.trace, Density) == 1 && Swaps(r.trace, Pressure) == 60
            && r.data == RenderData(SwapTexture(data.velocity), SwapTexture(data.density), data.pressure,
                                    SwapTexture(data.temperature), data.divergence)
  {
    SwapCounts(Default, data);
  }

  /**
   * Given pairwise-distinct handles, no pass of updateData binds for reading
   * the texture of the framebuffer it renders into.
   */
  lemma NoFeedback(cfg: Config, data: RenderData)
    requires Distinct(data)
    ensures var t := UpdateData(cfg, data).trace;
            forall i :: 0 <= i < |t| && t[i].Draw? ==> t[i].pass.dest !in t[i].pass.sources
  {
    UpdateDataComputes(cfg, data);
  }

  // GPGPU::restart.

  /** The nine volumes of the state. */
  function VolumeList(d: RenderData): (vs: seq<Volume>)
  {
    [d.velocity.cur, d.velocity.pre, d.density.cur, d.density.pre, d.pressure.cur, d.pressure.pre,
     d.temperature.cur, d.temperature.pre, d.divergence]
  }

  /** setDataVolume on each volume of `vs` in turn. */
  function FillAll(r: Run, vs: seq<Volume>, value: real): (r': Run)
    decreases |vs|
  {
    if vs == [] then r else FillAll(SetDataVolume(r, vs[0], value), vs[1..], value)
  }

  /** clearAllData: every 3D texture of the state is set to 0. */
  function ClearAllData(r: Run): (r': Run)
  {
    FillAll(r, VolumeList(r.data), 0.0)
  }

  /** restart: clear everything, then set the current temperature to the ambient temperature. */
  function Restart(data: RenderData): (r': Run)
  {
    var r := ClearAllData(Run([], data));
    SetDataVolume(r, r.data.temperature.cur, AmbientTemperature)
  }

  /** Filling a list of volumes sets exactly those volumes and changes no role. */
  lemma {:induction false} FillAllContents(s0: Machine, r: Run, vs: seq<Volume>, value: real)
    requires Replay(s0, r.trace).data == r.data
    ensures FillAll(r, vs, value).data == r.data
    ensures Replay(s0, FillAll(r, vs, value).trace).data == r.data
    ensures forall v :: Content(Replay(s0, FillAll(r, vs, value).trace).mem, v) ==
                        if v in vs then Const(value) else Content(Replay(s0, r.trace).mem, v)
    decreases |vs|
  {
    if vs != [] {
      var r1 := SetDataVolume(r, vs[0], value);
      assert r1.trace[..|r.trace|] == r.trace;
      var m := Replay(s0, r.trace);
      var m1 := Replay(s0, r1.trace);
      assert m1 == Machine(r.data, m.mem[vs[0] := Const(value)]);
      FillAllContents(s0, r1, vs[1..], value);
      var m2 := Replay(s0, FillAll(r, vs, value).trace);
      forall v
        ensures Content(m2.mem, v) == if v in vs then Const(value) else Content(m.mem, v)
      {
        assert v in vs <==> v == vs[0] || v in vs[1..];
      }
    }
  }

  /**
   * After restart every volume of the state holds 0, the current
   * temperature holds the ambient temperature, no other texture is written
   * and no role changes.
   */
  lemma RestartResets(data: RenderData)
    ensures var m := Replay(Start(data), Restart(data).trace);
            && m.data == data
            && Content(m.mem, data.temperature.cur) == Const(AmbientTemperature)
            && (forall v :: v in VolumeList(data) ==> Content(m.mem, v) == Const(0.0))
            && (forall v :: v !in VolumeList(data) ==> Content(m.mem, v) == Init(v))
  {
    ReplayAppend(Start(data));
    FillAllContents(Start(data), Run([], data), VolumeList(data), 0.0);
  }
}

=== FILE: proxy_geometry.dfy ===
/**
 * The constant proxy geometry the renderer draws: the cube [-1,1]^3 as a
 * table of 8 corner positions and 36 triangle indices (CreateCubeVao), and
 * the screen quad as a 4-vertex triangle strip (CreateQuadVao). All table
 * coordinates are the integers -1 and 1, so they are modelled exactly.
 */
module ProxyGeometry {

  datatype Point3 = Point3(x: int, y: int, z: int)

  datatype Axis = X | Y | Z

  /** The face of the cube on which coordinate `axis` equals `side`. */
  datatype Face = Face(axis: Axis, side: int)

  datatype Triangle = Triangle(a: Point3, b: Point3, c: Point3)

  /** The vertex positions of the cube, in table order. */
  const CubePositions: seq<Point3> := [
    Point3(-1, -1, -1), Point3(-1, -1, 1), Point3(-1, 1, -1), Point3(-1, 1, 1),
    Point3(1, -1, -1), Point3(1, -1, 1), Point3(1, 1, -1), Point3(1, 1, 1)]

  /** The cube's index table, three indices per triangle, two triangles per face. */
  const CubeIndices: seq<int> := [
    7, 3, 1, 1, 5, 7,
    0, 2, 6, 6, 4, 0,
    6, 2, 3, 3, 7, 6,
    1, 0, 4, 4, 5, 1,
    3, 2, 0, 0, 1, 3,
    4, 6, 7, 7, 5, 4]

  /** The face each pair of consecutive triangles of the table lies on. */
  const CubeFaces: seq<Face> := [
    Face(Z, 1), Face(Z, -1), Face(Y, 1), Face(Y, -1), Face(X, -1), Face(X, 1)]

  function Coord(p: Point3, a: Axis): (c: int)
  {
    match a
    case X => p.x
    case Y => p.y
    case Z => p.z
  }

  predicate IsCorner(p: Point3)
  {
    (p.x == -1 || p.x == 1) && (p.y == -1 || p.y == 1) && (p.z == -1 || p.z == 1)
  }

  predicate IsFace(f: Face)
  {
    f.side == -1 || f.side == 1
  }

  predicate OnFace(p: Point3, f: Face)
  {
    Coord(p, f.axis) == f.side
  }

  /** -1 for a clear bit, 1 for a set one. */
  function Sign(bit: int): (s: int)
  {
    if bit == 0 then -1 else 1
  }

  function Bit(s: int): (bit: int)
  {
    if s == 1 then 1 else 0
  }

  /** Entry i of the position table: bit 2 of i selects x, bit 1 selects y, bit 0 selects z. */
  function Corner(i: int): (p: Point3)
    requires 0 <= i < 8
    ensures IsCorner(p)
    ensures p == Point3(Sign(i / 4), Sign(i / 2 % 2), Sign(i % 2))
  {
    CubePositions[i]
  }

  /** Where a corner of the cube sits in the position table. */
  function CornerIndex(p: Point3): (i: int)
    requires IsCorner(p)
    ensures 0 <= i < 8 && Corner(i) == p
  {
    4 * Bit(p.x) + 2 * Bit(p.y) + Bit(p.z)
  }

  /** The table lists each of the 8 corners exactly once. */
  lemma CornersAreTheCube()
    ensures |CubePositions| == 8
    ensures forall i :: 0 <= i < 8 ==> CornerIndex(Corner(i)) == i
    ensures forall i, j :: 0 <= i < j < 8 ==> Corner(i) != Corner(j)
  {
    forall i | 0 <= i < 8
      ensures CornerIndex(Corner(i)) == i
    {
      assert Corner(i) == Point3(Sign(i / 4), Sign(i / 2 % 2), Sign(i % 2));
    }
    forall i, j | 0 <= i < j < 8
      ensures Corner(i) != Corner(j)
    {
      assert CornerIndex(Corner(i)) == i;
    }
  }

  /** The six faces of the table are the six faces of the cube, each once. */
  lemma FacesAreTheCube()
    ensures forall f :: IsFace(f) <==> f in CubeFaces
    ensures forall i, j :: 0 <= i < j < |CubeFaces| ==> CubeFaces[i] != CubeFaces[j]
  {
    forall f | IsFace(f)
      ensures f in CubeFaces
    {
      var i := match f.axis case Z => 0 case Y => 2 case X => 4;
      var k := if (f.axis == X) == (f.side == 1) then i + 1 else i;
      assert CubeFaces[k] == f;
    }
  }

  /** A direction in space; the renderer's float arithmetic is modelled over the reals. */
  datatype Vec3 = Vec3(x: real, y: real, z: real)

  function Minus(p: Point3, q: Point3): (d: Vec3)
  {
    Vec3((p.x - q.x) as real, (p.y - q.y) as real, (p.z - q.z) as real)
  }

  function Cross(u: Vec3, v: Vec3): (w: Vec3)
  {
    Vec3(u.y * v.z - u.z * v.y, u.z * v.x - u.x * v.z, u.x * v.y - u.y * v.x)
  }

  /** The normal of a triangle whose vertices are taken counter-clockwise: (b - a) x (c - a). */
  function Normal(t: Triangle): (n: Vec3)
  {
    Cross(Minus(t.b, t.a), Minus(t.c, t.a))
  }

  /** The unit vector pointing out of the cube through face f. */
  function Outward(f: Face): (n: Vec3)
  {
    match f.axis
    case X => Vec3(f.side as real, 0.0, 0.0)
    case Y => Vec3(0.0, f.side as real, 0.0)
    case Z => Vec3(0.0, 0.0, f.side as real)
  }

  function Scale(k: real, v: Vec3): (w: Vec3)
  {
    Vec3(k * v.x, k * v.y, k * v.z)
  }

  /** The three corners of triangle k, 0 <= k < 12, as the index table lists them. */
  function Vertices(k: int): (t: Triangle)
    requires 0 <= k < 12
  {
    Triangle(CubePositions[CubeIndices[3 * k]], CubePositions[CubeIndices[3 * k + 1]], CubePositions[CubeIndices[3 * k + 2]])
  }

  function CornersOf(t: Triangle): (s: set<Point3>)
  {
    {t.a, t.b, t.c}
  }

  predicate OnAll(t: Triangle, f: Face)
  {
    OnFace(t.a, f) && OnFace(t.b, f) && OnFace(t.c, f)
  }

  /** Three distinct corners of the cube. */
  predicate Proper(t: Triangle)
  {
    IsCorner(t.a) && IsCorner(t.b) && IsCorner(t.c) && t.a != t.b && t.b != t.c && t.a != t.c
  }

  /** f0 is the one face of the cube that t lies on. */
  ghost predicate OnlyOn(t: Triangle, f0: Face)
  {
    forall f :: IsFace(f) ==> (OnAll(t, f) <==> f == f0)
  }

  /**
   * The normal of t, its vertices taken counter-clockwise, points out of the
   * cube through f0 (with length 4, twice the triangle's area), so back-face
   * culling keeps the outside of the cube.
   */
  predicate WindsOutward(t: Triangle, f0: Face)
  {
    Normal(t) == Scale(4.0, Outward(f0))
  }

  /** The two triangles use exactly the four corners of face f0 between them. */
  ghost predicate Covers(t0: Triangle, t1: Triangle, f0: Face)
  {
    forall p :: IsCorner(p) ==> (OnFace(p, f0) <==> p in CornersOf(t0) + CornersOf(t1))
  }

  /** Three distinct corners that share a face share no other: an edge holds only two corners. */
  lemma OnOneFace(t: Triangle, f0: Face)
    requires Proper(t) && IsFace(f0) && OnAll(t, f0)
    ensures OnlyOn(t, f0)
  {
    forall f | IsFace(f) && OnAll(t, f)
      ensures f == f0
    {
      if f.axis != f0.axis {
        // all three corners would agree on two coordinates, leaving two choices for the third
        assert false;
      }
    }
  }

  /**
   * t0 and t1 draw face f0: both lie on that face alone, both face outwards,
   * and between them they use its four corners.
   */
  ghost predicate DrawnBy(t0: Triangle, t1: Triangle, f0: Face)
  {
    && OnlyOn(t0, f0) && WindsOutward(t0, f0)
    && OnlyOn(t1, f0) && WindsOutward(t1, f0)
    && Covers(t0, t1, f0)
  }

  /** Face j of CubeFaces is drawn by triangles 2j and 2j + 1 of the index table. */
  ghost predicate FaceDrawn(j: int)
    requires 0 <= j < 6
  {
    DrawnBy(Vertices(2 * j), Vertices(2 * j + 1), CubeFaces[j])
  }

  lemma DrawnByCorners(t0: Triangle, t1: Triangle, f0: Face)
    requires IsFace(f0) && Proper(t0) && Proper(t1) && OnAll(t0, f0) && OnAll(t1, f0)
    requires WindsOutward(t0, f0) && WindsOutward(t1, f0) && Covers(t0, t1, f0)
    ensures DrawnBy(t0, t1, f0)
  {
    OnOneFace(t0, f0);
    OnOneFace(t1, f0);
  }

  /** The index table's triangles 0 and 1, and the face they are meant for. */
  lemma FrontTable()
    ensures Vertices(0) == Triangle(Point3(1, 1, 1), Point3(-1, 1, 1), Point3(-1, -1, 1))
    ensures Vertices(1) == Triangle(Point3(-1, -1, 1), Point3(1, -1, 1), Point3(1, 1, 1))
    ensures CubeFaces[0] == Face(Z, 1)
  {
  }

  /** Triangles 0 and 1 draw the face z = 1. */
  lemma FrontFace()
    ensures FaceDrawn(0)
  {
    // bound with :| rather than :=, so that the solver reasons about t0, t1
    // and f0 through their equations instead of unfolding every definition
    // on the literal values
    var t0 :| t0 == Triangle(Point3(1, 1, 1), Point3(-1, 1, 1), Point3(-1, -1, 1));
    var t1 :| t1 == Triangle(Point3(-1, -1, 1), Point3(1, -1, 1), Point3(1, 1, 1));
    var f0 :| f0 == Face(Z, 1);
    DrawnByCorners(t0, t1, f0);
    FrontTable();
  }

  /** The index table's triangles 2 and 3, and the face they are meant for. */
  lemma BackTable()
    ensures Vertices(2) == Triangle(Point3(-1, -1, -1), Point3(-1, 1, -1), Point3(1, 1, -1))
    ensures Vertices(3) == Triangle(Point3(1, 1, -1), Point3(1, -1, -1), Point3(-1, -1, -1))
    ensures CubeFaces[1] == Face(Z, -1)
  {
  }

  /** Triangles 2 and 3 draw the face z = -1. */
  lemma BackFace()
    ensures FaceDrawn(1)
  {
    var t0 :| t0 == Triangle(Point3(-1, -1, -1), Point3(-1, 1, -1), Point3(1, 1, -1));
    var t1 :| t1 == Triangle(Point3(1, 1, -1), Point3(1, -1, -1), Point3(-1, -1, -1));
    var f0 :| f0 == Face(Z, -1);
    DrawnByCorners(t0, t1, f0);
    BackTable();
  }

  /** The index table's triangles 4 and 5, and the face they are meant for. */
  lemma TopTable()
    ensures Vertices(4) == Triangle(Point3(1, 1, -1), Point3(-1, 1, -1), Point3(-1, 1, 1))
    ensures Vertices(5) == Triangle(Point3(-1, 1, 1), Point3(1, 1, 1), Point3(1, 1, -1))
    ensures CubeFaces[2] == Face(Y, 1)
  {
  }

  /** Triangles 4 and 5 draw the face y = 1. */
  lemma TopFace()
    ensures FaceDrawn(2)
  {
    var t0 :| t0 == Triangle(Point3(1, 1, -1), Point3(-1, 1, -1), Point3(-1, 1, 1));
    var t1 :| t1 == Triangle(Point3(-1, 1, 1), Point3(1, 1, 1), Point3(1, 1, -1));
    var f0 :| f0 == Face(Y, 1);
    DrawnByCorners(t0, t1, f0);
    TopTable();
  }

  /** The index table's triangles 6 and 7, and the face they are meant for. */
  lemma BottomTable()
    ensures Vertices(6) == Triangle(Point3(-1, -1, 1), Point3(-1, -1, -1), Point3(1, -1, -1))
    ensures Vertices(7) == Triangle(Point3(1, -1, -1), Point3(1, -1, 1), Point3(-1, -1, 1))
    ensures CubeFaces[3] == Face(Y, -1)
  {
  }

  /** Triangles 6 and 7 draw the face y = -1. */
  lemma BottomFace()
    ensures FaceDrawn(3)
  {
    var t0 :| t0 == Triangle(Point3(-1, -1, 1), Point3(-1, -1, -1), Point3(1, -1, -1));
    var t1 :| t1 == Triangle(Point3(1, -1, -1), Point3(1, -1, 1), Point3(-1, -1, 1));
    var f0 :| f0 == Face(Y, -1);
    DrawnByCorners(t0, t1, f0);
    BottomTable();
  }

  /** The index table's triangles 8 and 9, and the face they are meant for. */
  lemma LeftTable()
    ensures Vertices(8) == Triangle(Point3(-1, 1, 1), Point3(-1, 1, -1), Point3(-1, -1, -1))
    ensures Vertices(9) == Triangle(Point3(-1, -1, -1), Point3(-1, -1, 1), Point3(-1, 1, 1))
    ensures CubeFaces[4] == Face(X, -1)
  {
  }

  /** Triangles 8 and 9 draw the face x = -1. */
  lemma LeftFace()
    ensures FaceDrawn(4)
  {
    var t0 :| t0 == Triangle(Point3(-1, 1, 1), Point3(-1, 1, -1), Point3(-1, -1, -1));
    var t1 :| t1 == Triangle(Point3(-1, -1, -1), Point3(-1, -1, 1), Point3(-1, 1, 1));
    var f0 :| f0 == Face(X, -1);
    DrawnByCorners(t0, t1, f0);
    LeftTable();
  }

  /** The index table's triangles 10 and 11, and the face they are meant for. */
  lemma RightTable()
    ensures Vertices(10) == Triangle(Point3(1, -1, -1), Point3(1, 1, -1), Point3(1, 1, 1))
    ensures Vertices(11) == Triangle(Point3(1, 1, 1), Point3(1, -1, 1), Point3(1, -1, -1))
    ensures CubeFaces[5] == Face(X, 1)
  {
  }

  /** Triangles 10 and 11 draw the face x = 1. */
  lemma RightFace()
    ensures FaceDrawn(5)
  {
    var t0 :| t0 == Triangle(Point3(1, -1, -1), Point3(1, 1, -1), Point3(1, 1, 1));
    var t1 :| t1 == Triangle(Point3(1, 1, 1), Point3(1, -1, 1), Point3(1, -1, -1));
    var f0 :| f0 == Face(X, 1);
    DrawnByCorners(t0, t1, f0);
    RightTable();
  }

  /** Every face of the cube is drawn, outside out, by its pair of triangles. */
  lemma CubeDrawn()
    ensures forall j :: 0 <= j < 6 ==> FaceDrawn(j)
  {
    forall j | 0 <= j < 6
      ensures FaceDrawn(j)
    {
      if j == 0 {
        FrontFace();
      } else if j == 1 {
        BackFace();
      } else if j == 2 {
        TopFace();
      } else if j == 3 {
        BottomFace();
      } else if j == 4 {
        LeftFace();
      } else {
        RightFace();
      }
    }
  }

  /** A vertex of the screen quad, in normalised device coordinates. */
  datatype Point2 = Point2(x: int, y: int)

  datatype Triangle2 = Triangle2(a: Point2, b: Point2, c: Point2)

  /** The quad's vertex table, drawn as a triangle strip of 4 vertices. */
  const QuadPositions: seq<Point2> := [Point2(-1, -1), Point2(1, -1), Point2(-1, 1), Point2(1, 1)]

  /**
   * Triangle i of a triangle strip: vertices i, i + 1, i + 2, with the first
   * two swapped for odd i so that every triangle keeps the strip's winding.
   */
  function StripTriangle(vs: seq<Point2>, i: int): (t: Triangle2)
    requires 0 <= i && i + 2 < |vs|
    ensures {t.a, t.b, t.c} == {vs[i], vs[i + 1], vs[i + 2]}
    ensures i % 2 == 0 ==> t.a == vs[i] && t.b == vs[i + 1]
    ensures i % 2 == 1 ==> t.a == vs[i + 1] && t.b == vs[i]
  {
    if i % 2 == 0 then Triangle2(vs[i], vs[i + 1], vs[i + 2]) else Triangle2(vs[i + 1], vs[i], vs[i + 2])
  }

  /**
   * Which side of the directed line p -> q the point (x, y) lies on: positive
   * to the left, zero on the line.
   */
  function Side(p: Point2, q: Point2, x: real, y: real): (s: real)
  {
    (q.x - p.x) as real * (y - p.y as real) - (q.y - p.y) as real * (x - p.x as real)
  }

  /** Twice the signed area of t: positive exactly when t winds counter-clockwise. */
  function Area2(t: Triangle2): (r: real)
  {
    Side(t.a, t.b, t.c.x as real, t.c.y as real)
  }

  /** (x, y) lies in the counter-clockwise triangle t, boundary included. */
  predicate Inside(t: Triangle2, x: real, y: real)
  {
    Side(t.a, t.b, x, y) >= 0.0 && Side(t.b, t.c, x, y) >= 0.0 && Side(t.c, t.a, x, y) >= 0.0
  }

  predicate InSquare(x: real, y: real)
  {
    -1.0 <= x <= 1.0 && -1.0 <= y <= 1.0
  }

  /**
   * The quad strip draws two triangles, both counter-clockwise (so back-face
   * culling keeps them) with area 2 each; together they cover exactly the
   * square [-1,1]^2 and overlap only on its diagonal x + y = 0.
   */
  lemma QuadCoversScreen()
    ensures |QuadPositions| - 2 == 2
    ensures Area2(StripTriangle(QuadPositions, 0)) == 4.0 && Area2(StripTriangle(QuadPositions, 1)) == 4.0
    ensures forall x: real, y: real ::
      InSquare(x, y) <==> Inside(StripTriangle(QuadPositions, 0), x, y) || Inside(StripTriangle(QuadPositions, 1), x, y)
    ensures forall x: real, y: real ::
      Inside(StripTriangle(QuadPositions, 0), x, y) && Inside(StripTriangle(QuadPositions, 1), x, y) ==> x + y == 0.0
  {
    var t0 := StripTriangle(QuadPositions, 0);
    var t1 := StripTriangle(QuadPositions, 1);
    assert t0 == Triangle2(Point2(-1, -1), Point2(1, -1), Point2(-1, 1));
    assert t1 == Triangle2(Point2(-1, 1), Point2(1, -1), Point2(1, 1));
  }

  /** The strip triangle that covers a point of the screen. */
  function CoveringTriangle(x: real, y: real): (i: int)
    requires InSquare(x, y)
    ensures 0 <= i < 2 && Inside(StripTriangle(QuadPositions, i), x, y)
  {
    QuadCoversScreen();
    if Inside(StripTriangle(QuadPositions, 0), x, y) then 0 else 1
  }
}

=== FILE: shader_paths.dfy ===
/**
 * The shader files `LoadProgram` reads: for every stage, a path built from
 * the stage's directory and the shader's name, and the program table of
 * `GPGPU` that names the shaders. Reading the files, compiling and linking
 * are not modelled.
 */
module ShaderPaths {
  import opened Outcomes

  datatype Stage = Vertex | Geometry | Fragment

  /** The directory under `shader/` that holds a stage's sources. */
  function StageDir(s: Stage): (dir: string)
    ensures |dir| == 2
  {
    match s
    case Vertex => "vs"
    case Geometry => "gs"
    case Fragment => "fs"
  }

  /** `"shader/" + dir + "/" + name + ".glsl"`. */
  function ShaderPath(s: Stage, name: string): (path: string)
    ensures |path| == |name| + 15
    ensures path[..7] == "shader/" && path[9] == '/' && path[|path| - 5..] == ".glsl"
    ensures path[7..9] == StageDir(s) && path[10..|path| - 5] == name
  {
    "shader/" + StageDir(s) + "/" + name + ".glsl"
  }

  /** The stage a directory names, if any. */
  function StageOf(dir: string): (s: Option<Stage>)
    ensures s.Some? ==> StageDir(s.value) == dir
  {
    if dir == "vs" then Some(Vertex)
    else if dir == "gs" then Some(Geometry)
    else if dir == "fs" then Some(Fragment)
    else None
  }

  /** Reading a path back as a stage and a shader name. */
  function ParsePath(path: string): (r: Option<(Stage, string)>)
  {
    if |path| < 15 || path[..7] != "shader/" || path[9] != '/' || path[|path| - 5..] != ".glsl" then None
    else
      match StageOf(path[7..9])
      case None => None
      case Some(s) => Some((s, path[10..|path| - 5]))
  }

  /** Every built path reads back as its stage and name. */
  lemma ParseShaderPath(s: Stage, name: string)
    ensures ParsePath(ShaderPath(s, name)) == Some((s, name))
  {
    var path := ShaderPath(s, name);
    assert StageOf(path[7..9]) == Some(s);
  }

  /** Every path that reads back was built from what it reads back as. */
  lemma ShaderPathOfParse(path: string)
    requires ParsePath(path).Some?
    ensures ShaderPath(ParsePath(path).value.0, ParsePath(path).value.1) == path
  {
    var (s, name) := ParsePath(path).value;
    var built := ShaderPath(s, name);
    assert built[..7] == path[..7];
    assert built[7..9] == path[7..9];
    assert built[10..|built| - 5] == path[10..|path| - 5];
    assert built[|built| - 5..] == path[|path| - 5..];
    assert forall i | 0 <= i < |path| :: built[i] == path[i] by {
      forall i | 0 <= i < |path|
        ensures built[i] == path[i]
      {
        if i < 7 {
          assert built[i] == built[..7][i];
        } else if i < 9 {
          assert built[i] == built[7..9][i - 7];
        } else if i == 9 {
        } else if i < |path| - 5 {
          assert built[i] == built[10..|built| - 5][i - 10];
        } else {
          assert built[i] == built[|built| - 5..][i - (|path| - 5)];
        }
      }
    }
  }

  /** Different stages or different names never share a file. */
  lemma ShaderPathInjective(s1: Stage, n1: string, s2: Stage, n2: string)
    ensures ShaderPath(s1, n1) == ShaderPath(s2, n2) <==> s1 == s2 && n1 == n2
  {
    ParseShaderPath(s1, n1);
    ParseShaderPath(s2, n2);
  }

  /** The files one LoadProgram call reads, vertex, geometry and fragment in that order. */
  function ProgramFiles(vs: string, gs: string, fs: string): (files: seq<string>)
    ensures |files| == 3
    ensures forall i | 0 <= i < 3 :: ParsePath(files[i]).Some?
    ensures ParsePath(files[0]) == Some((Vertex, vs))
    ensures ParsePath(files[1]) == Some((Geometry, gs))
    ensures ParsePath(files[2]) == Some((Fragment, fs))
  {
    ParseShaderPath(Vertex, vs);
    ParseShaderPath(Geometry, gs);
    ParseShaderPath(Fragment, fs);
    [ShaderPath(Vertex, vs), ShaderPath(Geometry, gs), ShaderPath(Fragment, fs)]
  }

  /** The shader names of one program: vertex, geometry, fragment. */
  datatype Program = Program(vs: string, gs: string, fs: string)

  /** The programs `GPGPU` loads: seven fluid passes, then ray-box intersection and ray casting. */
  const ProgramTable: seq<Program> := [
    Program("fluidvs", "fluidgs", "advectfs"),
    Program("fluidvs", "fluidgs", "buoyancyfs"),
    Program("fluidvs", "fluidgs", "forcefs"),
    Program("fluidvs", "fluidgs", "jacobifs"),
    Program("fluidvs", "fluidgs", "divergencefs"),
    Program("fluidvs", "fluidgs", "subgradientfs"),
    Program("fluidvs", "fluidgs", "boundaryfs"),
    Program("rayboxintersectvs", "", "rayboxintersectfs"),
    Program("raycastvs", "", "raycastfs")
  ]

  /** The seven fluid passes read the same vertex and geometry files. */
  lemma FluidProgramsShareStages()
    ensures forall i | 0 <= i < 7 ::
              ProgramFiles(ProgramTable[i].vs, ProgramTable[i].gs, ProgramTable[i].fs)[..2]
              == [ShaderPath(Vertex, "fluidvs"), ShaderPath(Geometry, "fluidgs")]
  {
  }

  /** The programs read pairwise different fragment shader files. */
  lemma FragmentFilesDiffer()
    ensures forall i, j | 0 <= i < j < |ProgramTable| ::
              ShaderPath(Fragment, ProgramTable[i].fs) != ShaderPath(Fragment, ProgramTable[j].fs)
  {
    forall i, j | 0 <= i < j < |ProgramTable|
      ensures ShaderPath(Fragment, ProgramTable[i].fs) != ShaderPath(Fragment, ProgramTable[j].fs)
    {
      ShaderPathInjective(Fragment, ProgramTable[i].fs, Fragment, ProgramTable[j].fs);
      assert ProgramTable[i].fs != ProgramTable[j].fs;
    }
  }

  /** The two ray programs give an empty geometry name, and the path is built
      all the same: they ask for the file `shader/gs/.glsl`. */
  lemma RayProgramsAskForEmptyName()
    ensures forall i | 7 <= i < |ProgramTable| ::
              ProgramFiles(ProgramTable[i].vs, ProgramTable[i].gs, ProgramTable[i].fs)[1] == "shader/gs/.glsl"
  {
    assert ShaderPath(Geometry, "") == "shader/gs/.glsl";
  }
}

=== FILE: vtk_reader.dfy ===
/**
 * `Util::loadVTK`: a reader for legacy VTK files holding a STRUCTURED_POINTS
 * data set of big-endian `unsigned_short` scalars, following the layout of
 * Kitware's "VTK File Formats" (simple legacy formats). The file is a byte
 * sequence; the header is read line by line with `fgets`, the samples with
 * `fread` straight after the LOOKUP_TABLE line.
 */
module VtkReader {
  import opened Outcomes
  import opened CText

  /** What the caller gets back: the grid dimensions and one value in
      [0, 1) per grid point, x fastest. */
  datatype Volume = Volume(width: int, height: int, depth: int, samples: seq<real>)

  /** The values held by the caller's width/height/depth variables. */
  datatype Dims = Dims(width: int, height: int, depth: int)

  /** Why no volume came back. The source returns false for four of these;
      for the others it never returns or reads memory it never wrote. */
  datatype LoadError =
    | NoFormatLine         // no line starts with BINARY or ASCII: the header loop never ends
    | NotDataset           // the line after it does not start with DATASET: returns false
    | NoPointData          // no line starts with POINT_DATA: the structure loop never ends
    | NotScalars           // the next line does not start with SCALARS: returns false
    | MissingScalarType    // SCALARS has fewer than two words: the type buffer is never written
    | NotUnsignedShort     // the type does not start with unsigned_short: returns false
    | NoLookupTable        // the next line does not start with LOOKUP_TABLE: returns false
    | IntOverflow          // a dimension, width * height or the count leaves the int range: undefined
    | NegativeCount        // width * height * depth < 0: the array allocation throws
    | TruncatedData        // fewer than two bytes per sample remain: fread leaves samples undefined

  /** The range of the source's `int`. */
  const IntMin: int := -0x8000_0000
  const IntMax: int := 0x7fff_ffff

  predicate FitsInt(n: int) {
    IntMin <= n <= IntMax
  }

  /** `sscanf` stored every dimension without overflow and the product
      `width * height * depth`, evaluated left to right, does not overflow. */
  predicate CountFits(dims: Dims) {
    && FitsInt(dims.width) && FitsInt(dims.height) && FitsInt(dims.depth)
    && FitsInt(dims.width * dims.height) && FitsInt(dims.width * dims.height * dims.depth)
  }

  /** The 16-bit big-endian value of a byte pair. */
  function BigEndian(hi: Byte, lo: Byte): (n: int)
    ensures 0 <= n < 65536
  {
    hi as int * 256 + lo as int
  }

  /** The 16-bit big-endian value of two bytes, scaled by 1/65536. Every
      16-bit value is exact in a float, and so is its quotient by a power of
      two: the float the source stores is this real number. */
  function Sample(hi: Byte, lo: Byte): (v: real)
    ensures 0.0 <= v < 1.0
    ensures v * 65536.0 == BigEndian(hi, lo) as real
  {
    (hi as int * 256 + lo as int) as real / 65536.0
  }

  /** `samples` are the byte pairs starting at offset `p`, each read
      high byte first and divided by 65536. */
  ghost predicate DecodedFrom(f: seq<Byte>, p: nat, samples: seq<real>) {
    && p + 2 * |samples| <= |f|
    && forall i | 0 <= i < |samples| :: samples[i] * 65536.0 == BigEndian(f[p + 2 * i], f[p + 2 * i + 1]) as real
  }

  /** Samples decoded from a suffix of a file were decoded from the file. */
  lemma DecodedInSuffix(f: seq<Byte>, k: nat, p: nat, samples: seq<real>)
    requires k <= |f| && DecodedFrom(f[k..], p, samples)
    ensures DecodedFrom(f, k + p, samples)
  {
  }

  /** `samples` are decoded from offset `p`, and the bytes from `q` up to `p`
      are exactly what one `fgets` reads from `q`, a line that starts with
      LOOKUP_TABLE: the data begins where that line ends. */
  ghost predicate DataAfterLookup(f: seq<Byte>, q: nat, p: nat, samples: seq<real>) {
    && q < p && DecodedFrom(f, p, samples)
    && p == q + LineLength(f, q, BufferSize - 1)
    && StartsWith(f[q..p], "LOOKUP_TABLE")
  }

  /** The line before the data is what `fgets` reads at `q`, whatever the
      buffer held: reading resumes exactly at the first sample. */
  lemma LookupLineIsRead(f: seq<Byte>, q: nat, p: nat, samples: seq<real>, stale: seq<Byte>)
    requires DataAfterLookup(f, q, p, samples)
    ensures Fgets(f, Reader(q, stale)) == Reader(p, f[q..p])
    ensures StartsWith(Fgets(f, Reader(q, stale)).buffer, "LOOKUP_TABLE")
  {
  }

  /** Data one line further on does not count: in `LOOKUP_TABLE\nX\n`
      followed by a byte pair, the pair follows the line `X`, not the
      LOOKUP_TABLE line. */
  lemma DataNotALineLater(samples: seq<real>)
    ensures var f: seq<Byte> := "LOOKUP_TABLE\nX\n" + [0 as Byte, 5 as Byte];
      !DataAfterLookup(f, 0, 15, samples)
  {
    var f: seq<Byte> := "LOOKUP_TABLE\nX\n" + [0 as Byte, 5 as Byte];
    assert f[12] == NewLine;
    var k := LineLength(f, 0, BufferSize - 1);
    LineLengthStopsAtNewLine(f, 0, BufferSize - 1);
    assert k <= 13;
  }

  /** Data found after a LOOKUP_TABLE line of a suffix of a file was found
      after that line in the file. */
  lemma DataInSuffix(f: seq<Byte>, k: nat, q: nat, p: nat, samples: seq<real>)
    requires k <= |f| && DataAfterLookup(f[k..], q, p, samples)
    ensures DataAfterLookup(f, k + q, k + p, samples)
  {
    DecodedInSuffix(f, k, p, samples);
    LineLengthInSuffix(f, k, q, BufferSize - 1);
    assert f[k..][q..p] == f[k + q..k + p];
  }

  /** A SCALARS line is not a LOOKUP_TABLE line. */
  lemma ScalarsIsNotLookup(b: seq<Byte>)
    requires StartsWith(b, "SCALARS")
    ensures !StartsWith(b, "LOOKUP_TABLE")
  {
    assert b[0] == 'S';
  }

  /** Decoded samples lie in [0, 1). */
  lemma DecodedInRange(f: seq<Byte>, p: nat, samples: seq<real>)
    requires DecodedFrom(f, p, samples)
    ensures forall i | 0 <= i < |samples| :: 0.0 <= samples[i] < 1.0
  {
  }

  /** The loop that fills the output array: `count` samples read two bytes at
      a time from offset `p`. */
  function Samples(f: seq<Byte>, p: nat, count: nat): (s: seq<real>)
    requires p + 2 * count <= |f|
    ensures |s| == count
    ensures DecodedFrom(f, p, s)
  {
    seq(count, i requires 0 <= i < count => Sample(f[p + 2 * i], f[p + 2 * i + 1]))
  }

  /** The decoding condition pins the samples down: the samples decoded
      from offset `p` are exactly those the loop reads there. */
  lemma DecodedIsSamples(f: seq<Byte>, p: nat, s: seq<real>)
    requires p + 2 * |s| <= |f|
    ensures DecodedFrom(f, p, s) <==> s == Samples(f, p, |s|)
  {
    if DecodedFrom(f, p, s) {
      var t := Samples(f, p, |s|);
      forall i | 0 <= i < |s|
        ensures s[i] == t[i]
      {
        assert s[i] * 65536.0 == t[i] * 65536.0;
      }
    }
  }

  /** The line that ends the header scan. */
  predicate IsFormatLine(line: seq<Byte>) {
    StartsWith(line, "BINARY") || StartsWith(line, "ASCII")
  }

  /** How the header scan ended: the flag it set and the reader after the
      BINARY or ASCII line. */
  datatype Header = Header(binary: bool, reader: Reader)

  /** The header loop: comment lines and every other line are skipped until
      one starts with BINARY or ASCII. The scan is stated over the bytes
      still unread, so the reader it returns counts from their start. */
  function ScanHeader(f: seq<Byte>): (h: Option<Header>)
    ensures h.Some? ==> 0 < h.value.reader.pos <= |f|
    ensures h.Some? ==> IsFormatLine(h.value.reader.buffer)
    ensures h.Some? ==> (h.value.binary <==> StartsWith(h.value.reader.buffer, "BINARY"))
    decreases |f|
  {
    if f == [] then None
    else
      var r := Fgets(f, Reader(0, []));
      if StartsWith(r.buffer, "#") then SkipLine(r.pos, ScanHeader(f[r.pos..]))
      else if StartsWith(r.buffer, "BINARY") then Some(Header(true, r))
      else if StartsWith(r.buffer, "ASCII") then Some(Header(false, r))
      else SkipLine(r.pos, ScanHeader(f[r.pos..]))
  }

  /** The scan of the bytes after the first `n`, seen from `n` bytes earlier. */
  function SkipLine(n: nat, h: Option<Header>): (shifted: Option<Header>) {
    if h.None? then None
    else Some(Header(h.value.binary, Reader(n + h.value.reader.pos, h.value.reader.buffer)))
  }

  /** `sscanf(buff, "DIMENSIONS %d %d %d", ...)`: the variables are assigned
      in order for as long as the conversions succeed. */
  function ParseDimensions(line: seq<Byte>, dims: Dims): (parsed: Dims)
    requires StartsWith(line, "DIMENSIONS")
  {
    var s := CString(line);
    match ScanInt(s, 10)
    case None => dims
    case Some((w, p)) =>
      match ScanInt(s, p)
      case None => Dims(w, dims.height, dims.depth)
      case Some((h, q)) =>
        match ScanInt(s, q)
        case None => Dims(w, h, dims.depth)
        case Some((d, _)) => Dims(w, h, d)
  }

  /** The structure loop: DIMENSIONS lines set the dimensions, other lines
      are skipped, a POINT_DATA line ends the loop. At end of file `fgets`
      keeps returning the stale buffer, which is never a POINT_DATA line, so
      the source loops for ever. */
  function ScanStructure(f: seq<Byte>, r: Reader, dims: Dims): (res: Result<(Reader, Dims), LoadError>)
    requires r.pos <= |f|
    ensures res.Success? ==> r.pos < res.value.0.pos <= |f| && StartsWith(res.value.0.buffer, "POINT_DATA")
    ensures res.Failure? ==> res.error == NoPointData
    decreases |f| - r.pos
  {
    if r.pos == |f| then Failure(NoPointData)
    else
      var r' := Fgets(f, r);
      if StartsWith(r'.buffer, "DIMENSIONS") then ScanStructure(f, r', ParseDimensions(r'.buffer, dims))
      else if StartsWith(r'.buffer, "POINT_DATA") then Success((r', dims))
      else ScanStructure(f, r', dims)
  }

  /** One pass of the structure loop over a whole line at the read position,
      which ends at `q`. */
  lemma StructureLine(f: seq<Byte>, r: Reader, q: nat, l: seq<Byte>, dims: Dims)
    requires q == r.pos + |l| && q <= |f| && f[r.pos..q] == l && WholeLine(l)
    ensures ScanStructure(f, r, dims) ==
      if StartsWith(l, "DIMENSIONS") then ScanStructure(f, Reader(q, l), ParseDimensions(l, dims))
      else if StartsWith(l, "POINT_DATA") then Success((Reader(q, l), dims))
      else ScanStructure(f, Reader(q, l), dims)
  {
    FgetsWholeLine(f, r, l);
    assert Fgets(f, r) == Reader(q, l);
  }

  /** `sscanf(buff, "SCALARS %s %s", name, type)`: the second word after the
      keyword, if there is one. */
  function ScalarType(line: seq<Byte>): (t: Option<seq<Byte>>)
    requires StartsWith(line, "SCALARS")
  {
    var s := CString(line);
    match ScanWord(s, 7)
    case None => None
    case Some((_, p)) =>
      match ScanWord(s, p)
      case None => None
      case Some((t, _)) => Some(t)
  }

  /** Everything after the BINARY or ASCII line. `rest` is the remainder of
      the file and `stale` the line left in the buffer. */
  function LoadBody(rest: seq<Byte>, stale: seq<Byte>, dims0: Dims): (res: Result<Volume, LoadError>)
    ensures res.Success? ==> CountFits(Dims(res.value.width, res.value.height, res.value.depth))
    ensures res.Success? ==> |res.value.samples| == res.value.width * res.value.height * res.value.depth
    ensures res.Success? ==> exists q: nat, p: nat :: DataAfterLookup(rest, q, p, res.value.samples)
  {
    var r1 := Fgets(rest, Reader(0, stale));
    if !StartsWith(r1.buffer, "DATASET") then Failure(NotDataset)
    else
      var res := LoadData(rest[r1.pos..], r1.buffer, dims0);
      assert res.Success? ==> exists q: nat, p: nat :: DataAfterLookup(rest, q, p, res.value.samples) by {
        if res.Success? {
          var q: nat, p: nat :| DataAfterLookup(rest[r1.pos..], q, p, res.value.samples);
          DataInSuffix(rest, r1.pos, q, p, res.value.samples);
        }
      }
      res
  }

  /** Everything after the DATASET line: the structure loop, the SCALARS and
      LOOKUP_TABLE lines and the samples. `rest` is the remainder of the file
      and `stale` the line left in the buffer. */
  function LoadData(rest: seq<Byte>, stale: seq<Byte>, dims0: Dims): (res: Result<Volume, LoadError>)
    ensures res.Success? ==> CountFits(Dims(res.value.width, res.value.height, res.value.depth))
    ensures res.Success? ==> |res.value.samples| == res.value.width * res.value.height * res.value.depth
    ensures res.Success? ==> exists q: nat, p: nat :: DataAfterLookup(rest, q, p, res.value.samples)
  {
    match ScanStructure(rest, Reader(0, stale), dims0)
    case Failure(e) => Failure(e)
    case Success((r2, dims)) =>
      var r3 := Fgets(rest, r2);
      if !StartsWith(r3.buffer, "SCALARS") then Failure(NotScalars)
      else
        match ScalarType(r3.buffer)
        case None => Failure(MissingScalarType)
        case Some(t) =>
          if !StartsWith(t, "unsigned_short") then Failure(NotUnsignedShort)
          else
            ScalarsIsNotLookup(r3.buffer);
            var r4 := Fgets(rest, r3);
            if !StartsWith(r4.buffer, "LOOKUP_TABLE") then Failure(NoLookupTable)
            else
              var count := dims.width * dims.height * dims.depth;
              if !CountFits(dims) then Failure(IntOverflow)
              else if count < 0 then Failure(NegativeCount)
              else if |rest| - r4.pos < 2 * count then Failure(TruncatedData)
              else
                var v := Volume(dims.width, dims.height, dims.depth, Samples(rest, r4.pos, count));
                assert DataAfterLookup(rest, r3.pos, r4.pos, v.samples);
                Success(v)
  }

  /** `Util::loadVTK` on the file `f`, with the caller's width, height and
      depth variables holding `dims0` beforehand. */
  function Load(f: seq<Byte>, dims0: Dims): (res: Result<Volume, LoadError>)
    ensures res.Success? ==> CountFits(Dims(res.value.width, res.value.height, res.value.depth))
    ensures res.Success? ==> |res.value.samples| == res.value.width * res.value.height * res.value.depth
    ensures res.Success? ==> exists q: nat, p: nat :: DataAfterLookup(f, q, p, res.value.samples)
    ensures res.Success? ==> forall i | 0 <= i < |res.value.samples| :: 0.0 <= res.value.samples[i] < 1.0
  {
    match ScanHeader(f)
    case None => Failure(NoFormatLine)
    case Some(h) =>
      BodyInFile(f, h.reader.pos, h.reader.buffer, dims0);
      LoadBody(f[h.reader.pos..], h.reader.buffer, dims0)
  }

  /** What `LoadBody` finds in the bytes after the first `n` of a file, it
      finds in the file: samples in [0, 1) after a LOOKUP_TABLE line. */
  lemma BodyInFile(f: seq<Byte>, n: nat, stale: seq<Byte>, dims0: Dims)
    requires n <= |f|
    ensures var res := LoadBody(f[n..], stale, dims0);
      res.Success? ==>
        && (exists q: nat, p: nat :: DataAfterLookup(f, q, p, res.value.samples))
        && forall i | 0 <= i < |res.value.samples| :: 0.0 <= res.value.samples[i] < 1.0
  {
    var res := LoadBody(f[n..], stale, dims0);
    if res.Success? {
      var q: nat, p: nat :| DataAfterLookup(f[n..], q, p, res.value.samples);
      DataInSuffix(f, n, q, p, res.value.samples);
      DecodedInRange(f, n + p, res.value.samples);
    }
  }

  /* ---- Properties of the reader ---- */

  /** `Load` once the header scan has run. */
  lemma LoadAfterHeader(f: seq<Byte>, dims0: Dims)
    ensures ScanHeader(f).None? ==> Load(f, dims0) == Failure(NoFormatLine)
    ensures ScanHeader(f).Some? ==>
      var r := ScanHeader(f).value.reader;
      Load(f, dims0) == LoadBody(f[r.pos..], r.buffer, dims0)
  {
  }

  /** The header scan over a file that starts with a whole line. */
  lemma ScanHeaderFirstLine(l: seq<Byte>, f: seq<Byte>)
    requires WholeLine(l)
    ensures IsFormatLine(l) ==> ScanHeader(l + f) == Some(Header(StartsWith(l, "BINARY"), Reader(|l|, l)))
    ensures !IsFormatLine(l) ==> (ScanHeader(l + f).Some? <==> ScanHeader(f).Some?)
    ensures !IsFormatLine(l) && ScanHeader(f).Some? ==>
      var h := ScanHeader(f).value;
      ScanHeader(l + f) == Some(Header(h.binary, Reader(|l| + h.reader.pos, h.reader.buffer)))
  {
    var r := Reader(|l|, l);
    assert (l + f)[0..|l|] == l;
    FgetsWholeLine(l + f, Reader(0, []), l);
    if StartsWith(l, "BINARY") {
      BinaryLine(l + f, r);
    } else if StartsWith(l, "ASCII") {
      AsciiLine(l + f, r);
    } else {
      OtherLine(l + f, r);
      assert (l + f)[|l|..] == f;
    }
  }

  /** One turn of the header loop. */
  lemma ScanHeaderStep(f: seq<Byte>)
    requires f != []
    ensures var r := Fgets(f, Reader(0, []));
      ScanHeader(f) ==
        if IsFormatLine(r.buffer) then Some(Header(StartsWith(r.buffer, "BINARY"), r))
        else SkipLine(r.pos, ScanHeader(f[r.pos..]))
  {
    var r := Fgets(f, Reader(0, []));
    if StartsWith(r.buffer, "BINARY") {
      BinaryLine(f, r);
    } else if StartsWith(r.buffer, "ASCII") {
      AsciiLine(f, r);
    } else {
      OtherLine(f, r);
    }
  }

  lemma BinaryLine(f: seq<Byte>, r: Reader)
    requires f != [] && r == Fgets(f, Reader(0, [])) && StartsWith(r.buffer, "BINARY")
    ensures ScanHeader(f) == Some(Header(true, r))
  {
    assert r.buffer[0] == 'B';
  }

  lemma AsciiLine(f: seq<Byte>, r: Reader)
    requires f != [] && r == Fgets(f, Reader(0, [])) && StartsWith(r.buffer, "ASCII")
    ensures ScanHeader(f) == Some(Header(false, r))
  {
    assert r.buffer[0] == 'A';
  }

  lemma OtherLine(f: seq<Byte>, r: Reader)
    requires f != [] && r == Fgets(f, Reader(0, [])) && !IsFormatLine(r.buffer)
    ensures ScanHeader(f) == SkipLine(r.pos, ScanHeader(f[r.pos..]))
  {
  }

  /** The line the header scan stops at is exactly the bytes just before the
      position it stops at. */
  lemma {:induction false} ScanHeaderReadsLine(f: seq<Byte>)
    ensures ScanHeader(f).Some? ==> LineBefore(f, ScanHeader(f).value.reader)
    decreases |f|
  {
    if f != [] {
      var r := Fgets(f, Reader(0, []));
      if IsFormatLine(r.buffer) {
        ScanHeaderStep(f);
      } else {
        OtherLine(f, r);
        ScanHeaderReadsLine(f[r.pos..]);
        if ScanHeader(f[r.pos..]).Some? {
          LineBeforeInSuffix(f, r.pos, ScanHeader(f[r.pos..]).value.reader);
        }
      }
    }
  }

  /** The buffer holds exactly the bytes just before the reader's position. */
  ghost predicate LineBefore(f: seq<Byte>, r: Reader) {
    |r.buffer| <= r.pos <= |f| && r.buffer == f[r.pos - |r.buffer|..r.pos]
  }

  lemma LineBeforeInSuffix(f: seq<Byte>, n: nat, r: Reader)
    requires n <= |f| && LineBefore(f[n..], r)
    ensures LineBefore(f, Reader(n + r.pos, r.buffer))
  {
    assert f[n..][r.pos - |r.buffer|..r.pos] == f[n + r.pos - |r.buffer|..n + r.pos];
  }

  /** `LoadBody` when the next line is a whole line. */
  lemma LoadBodyLine(l: seq<Byte>, g: seq<Byte>, stale: seq<Byte>, dims0: Dims)
    requires WholeLine(l)
    ensures LoadBody(l + g, stale, dims0) ==
      if StartsWith(l, "DATASET") then LoadData(g, l, dims0) else Failure(NotDataset)
  {
    FgetsWholeLine(l + g, Reader(0, stale), l);
    assert (l + g)[|l|..] == g;
  }

  /** Two files whose header scans stop at lines with the same contents and
      go on with the same bytes load alike. */
  lemma SameAfterHeader(f1: seq<Byte>, f2: seq<Byte>, dims0: Dims)
    requires ScanHeader(f1).Some? && ScanHeader(f2).Some?
    requires var r1, r2 := ScanHeader(f1).value.reader, ScanHeader(f2).value.reader;
      r1.buffer == r2.buffer && f1[r1.pos..] == f2[r2.pos..]
    ensures Load(f1, dims0) == Load(f2, dims0)
  {
    LoadAfterHeader(f1, dims0);
    LoadAfterHeader(f2, dims0);
  }

  /** A line that starts with neither BINARY nor ASCII, ahead of the format
      line, is ignored whatever it holds. */
  lemma SkipsLineBeforeFormat(l: seq<Byte>, f: seq<Byte>, dims0: Dims)
    requires WholeLine(l) && !IsFormatLine(l)
    ensures Load(l + f, dims0) == Load(f, dims0)
  {
    ScanHeaderFirstLine(l, f);
    if ScanHeader(f).Some? {
      var r := ScanHeader(f).value.reader;
      assert ScanHeader(l + f).value.reader == Reader(|l| + r.pos, r.buffer);
      assert (l + f)[|l| + r.pos..] == f[r.pos..];
      SameAfterHeader(l + f, f, dims0);
    } else {
      LoadAfterHeader(l + f, dims0);
      LoadAfterHeader(f, dims0);
    }
  }

  /** A file that opens with its format line goes straight on to the
      structure part with the bytes after it. */
  lemma FormatLineFirst(l: seq<Byte>, g: seq<Byte>, dims0: Dims)
    requires WholeLine(l) && IsFormatLine(l)
    ensures Load(l + g, dims0) == LoadBody(g, l, dims0)
  {
    ScanHeaderFirstLine(l, g);
    LoadAfterHeader(l + g, dims0);
    assert (l + g)[|l|..] == g;
  }

  /** Lines starting with BINARY or ASCII have different first letters from
      DATASET. */
  lemma FormatLineIsNotDataset(m: seq<Byte>)
    requires IsFormatLine(m)
    ensures !StartsWith(m, "DATASET")
  {
    if StartsWith(m, "BINARY") {
      assert m[0] == 'B';
    } else {
      assert m[0] == 'A';
    }
  }

  /** The format line ends the header scan; whether it says BINARY or ASCII
      makes no difference to the result, since the samples are always read
      as raw bytes. */
  lemma FormatFlagUnused(m1: seq<Byte>, m2: seq<Byte>, f: seq<Byte>, dims0: Dims)
    requires WholeLine(m1) && IsFormatLine(m1)
    requires WholeLine(m2) && IsFormatLine(m2)
    ensures Load(m1 + f, dims0) == Load(m2 + f, dims0)
  {
    ScanHeaderFirstLine(m1, f);
    ScanHeaderFirstLine(m2, f);
    LoadAfterHeader(m1 + f, dims0);
    LoadAfterHeader(m2 + f, dims0);
    assert (m1 + f)[|m1|..] == f;
    assert (m2 + f)[|m2|..] == f;
    FormatLineIsNotDataset(m1);
    FormatLineIsNotDataset(m2);
    if f == [] {
      assert LoadBody(f, m1, dims0) == Failure(NotDataset);
      assert LoadBody(f, m2, dims0) == Failure(NotDataset);
    } else {
      assert Fgets(f, Reader(0, m1)) == Fgets(f, Reader(0, m2));
    }
  }

  /** The DATASET line is compared on its first seven bytes only: a line
      naming any other data set type is read as STRUCTURED_POINTS. */
  lemma AnyDatasetType(m: seq<Byte>, l1: seq<Byte>, l2: seq<Byte>, f: seq<Byte>, dims0: Dims)
    requires WholeLine(m) && IsFormatLine(m)
    requires WholeLine(l1) && StartsWith(l1, "DATASET")
    requires WholeLine(l2) && StartsWith(l2, "DATASET")
    ensures Load(m + (l1 + f), dims0) == Load(m + (l2 + f), dims0)
  {
    ScanHeaderFirstLine(m, l1 + f);
    ScanHeaderFirstLine(m, l2 + f);
    LoadAfterHeader(m + (l1 + f), dims0);
    LoadAfterHeader(m + (l2 + f), dims0);
    assert (m + (l1 + f))[|m|..] == l1 + f;
    assert (m + (l2 + f))[|m|..] == l2 + f;
    LoadBodyLine(l1, f, m, dims0);
    LoadBodyLine(l2, f, m, dims0);
    LoadDataStale(f, l1, l2, dims0);
  }

  /** After the DATASET line the line left in the buffer plays no part. */
  lemma LoadDataStale(f: seq<Byte>, b1: seq<Byte>, b2: seq<Byte>, dims0: Dims)
    ensures LoadData(f, b1, dims0) == LoadData(f, b2, dims0)
  {
    if f != [] {
      assert Fgets(f, Reader(0, b1)) == Fgets(f, Reader(0, b2));
    }
    assert ScanStructure(f, Reader(0, b1), dims0) == ScanStructure(f, Reader(0, b2), dims0);
  }

  /** A line after the format line that does not start with DATASET makes
      the reader return false. */
  lemma RejectsOtherStructure(m: seq<Byte>, l: seq<Byte>, f: seq<Byte>, dims0: Dims)
    requires WholeLine(m) && IsFormatLine(m)
    requires WholeLine(l) && !StartsWith(l, "DATASET")
    ensures Load(m + (l + f), dims0) == Failure(NotDataset)
  {
    ScanHeaderFirstLine(m, l + f);
    LoadAfterHeader(m + (l + f), dims0);
    assert (m + (l + f))[|m|..] == l + f;
    LoadBodyLine(l, f, m, dims0);
  }

  /** A file that opens with its format line and a DATASET line goes on to
      the structure part with the bytes after them. */
  lemma LoadAfterDataset(m: seq<Byte>, l: seq<Byte>, g: seq<Byte>, dims0: Dims)
    requires WholeLine(m) && IsFormatLine(m)
    requires WholeLine(l) && StartsWith(l, "DATASET")
    ensures Load(m + (l + g), dims0) == LoadData(g, l, dims0)
  {
    FormatLineFirst(m, l + g, dims0);
    LoadBodyLine(l, g, m, dims0);
  }

  /** `fgets` at a read position where a whole line starts. */
  lemma NextLine(g: seq<Byte>, r: Reader, l: seq<Byte>, rest: seq<Byte>)
    requires r.pos <= |g| && g[r.pos..] == l + rest && WholeLine(l)
    ensures Fgets(g, r) == Reader(r.pos + |l|, l)
    ensures g[r.pos + |l|..] == rest
  {
    assert g[r.pos..r.pos + |l|] == (l + rest)[..|l|];
    FgetsWholeLine(g, r, l);
  }

  /** The line after POINT_DATA must start with SCALARS, or the reader
      returns false. */
  lemma RejectsNonScalars(m: seq<Byte>, l: seq<Byte>, g: seq<Byte>, dims0: Dims, r2: Reader, dims: Dims,
                          l5: seq<Byte>, rest: seq<Byte>)
    requires WholeLine(m) && IsFormatLine(m) && WholeLine(l) && StartsWith(l, "DATASET")
    requires ScanStructure(g, Reader(0, l), dims0) == Success((r2, dims))
    requires r2.pos <= |g| && g[r2.pos..] == l5 + rest
    requires WholeLine(l5) && !StartsWith(l5, "SCALARS")
    ensures Load(m + (l + g), dims0) == Failure(NotScalars)
  {
    LoadAfterDataset(m, l, g, dims0);
    NextLine(g, r2, l5, rest);
  }

  /** A SCALARS line whose type does not start with unsigned_short makes the
      reader return false, whatever the rest of the file holds. */
  lemma RejectsOtherScalarType(m: seq<Byte>, l: seq<Byte>, g: seq<Byte>, dims0: Dims, r2: Reader, dims: Dims,
                               l5: seq<Byte>, rest: seq<Byte>, t: seq<Byte>)
    requires WholeLine(m) && IsFormatLine(m) && WholeLine(l) && StartsWith(l, "DATASET")
    requires ScanStructure(g, Reader(0, l), dims0) == Success((r2, dims))
    requires r2.pos <= |g| && g[r2.pos..] == l5 + rest
    requires WholeLine(l5) && StartsWith(l5, "SCALARS") && ScalarType(l5) == Some(t)
    requires !StartsWith(t, "unsigned_short")
    ensures Load(m + (l + g), dims0) == Failure(NotUnsignedShort)
  {
    LoadAfterDataset(m, l, g, dims0);
    NextLine(g, r2, l5, rest);
  }

  /** The line after an accepted SCALARS line must start with LOOKUP_TABLE,
      or the reader returns false. */
  lemma RejectsMissingLookupTable(m: seq<Byte>, l: seq<Byte>, g: seq<Byte>, dims0: Dims, r2: Reader, dims: Dims,
                                  l5: seq<Byte>, l6: seq<Byte>, rest: seq<Byte>)
    requires WholeLine(m) && IsFormatLine(m) && WholeLine(l) && StartsWith(l, "DATASET")
    requires ScanStructure(g, Reader(0, l), dims0) == Success((r2, dims))
    requires r2.pos <= |g| && g[r2.pos..] == l5 + (l6 + rest)
    requires WholeLine(l5) && StartsWith(l5, "SCALARS") && ScalarType(l5) == Some("unsigned_short")
    requires WholeLine(l6) && !StartsWith(l6, "LOOKUP_TABLE")
    ensures Load(m + (l + g), dims0) == Failure(NoLookupTable)
  {
    LoadAfterDataset(m, l, g, dims0);
    ScalarsThenLine(g, l, dims0, r2, dims, l5, l6, rest);
  }

  /** Dimensions whose product overflows `int` never give a volume. */
  lemma RejectsOverflow(m: seq<Byte>, l: seq<Byte>, g: seq<Byte>, dims0: Dims, r2: Reader, dims: Dims,
                        l5: seq<Byte>, l6: seq<Byte>, rest: seq<Byte>)
    requires WholeLine(m) && IsFormatLine(m) && WholeLine(l) && StartsWith(l, "DATASET")
    requires ScanStructure(g, Reader(0, l), dims0) == Success((r2, dims))
    requires r2.pos <= |g| && g[r2.pos..] == l5 + (l6 + rest)
    requires WholeLine(l5) && StartsWith(l5, "SCALARS") && ScalarType(l5) == Some("unsigned_short")
    requires WholeLine(l6) && StartsWith(l6, "LOOKUP_TABLE")
    requires !CountFits(dims)
    ensures Load(m + (l + g), dims0) == Failure(IntOverflow)
  {
    LoadAfterDataset(m, l, g, dims0);
    ScalarsThenLine(g, l, dims0, r2, dims, l5, l6, rest);
  }

  /** `LoadData` once the structure loop has ended and an accepted SCALARS
      line and one more whole line follow. */
  lemma ScalarsThenLine(g: seq<Byte>, l: seq<Byte>, dims0: Dims, r2: Reader, dims: Dims,
                        l5: seq<Byte>, l6: seq<Byte>, rest: seq<Byte>)
    requires ScanStructure(g, Reader(0, l), dims0) == Success((r2, dims))
    requires r2.pos <= |g| && g[r2.pos..] == l5 + (l6 + rest)
    requires WholeLine(l5) && StartsWith(l5, "SCALARS") && ScalarType(l5) == Some("unsigned_short")
    requires WholeLine(l6)
    ensures !StartsWith(l6, "LOOKUP_TABLE") ==> LoadData(g, l, dims0) == Failure(NoLookupTable)
    ensures StartsWith(l6, "LOOKUP_TABLE") && !CountFits(dims) ==> LoadData(g, l, dims0) == Failure(IntOverflow)
  {
    NextLine(g, r2, l5, l6 + rest);
    var r3 := Reader(r2.pos + |l5|, l5);
    NextLine(g, r3, l6, rest);
    assert Fgets(g, r2) == r3;
    assert Fgets(g, r3) == Reader(r3.pos + |l6|, l6);
    ScalarsIsNotLookup(l5);
  }

  /** A DIMENSIONS line with all three numbers present. */
  predicate FullDimensions(line: seq<Byte>)
    requires StartsWith(line, "DIMENSIONS")
  {
    var s := CString(line);
    && ScanInt(s, 10).Some?
    && ScanInt(s, ScanInt(s, 10).value.1).Some?
    && ScanInt(s, ScanInt(s, ScanInt(s, 10).value.1).value.1).Some?
  }

  /** Reading on from `r`, a DIMENSIONS line with all three numbers comes
      before the first POINT_DATA line. */
  predicate DimensionsAhead(f: seq<Byte>, r: Reader)
    requires r.pos <= |f|
    decreases |f| - r.pos
  {
    r.pos < |f| &&
    var r' := Fgets(f, r);
    if StartsWith(r'.buffer, "DIMENSIONS") then FullDimensions(r'.buffer)
    else !StartsWith(r'.buffer, "POINT_DATA") && DimensionsAhead(f, r')
  }

  /** The last DIMENSIONS line wins: whatever the caller's variables or an
      earlier DIMENSIONS line held is overwritten by a later complete one. */
  lemma {:induction false} LaterDimensionsWin(f: seq<Byte>, r: Reader, x: Dims, y: Dims)
    requires r.pos <= |f|
    requires DimensionsAhead(f, r)
    ensures ScanStructure(f, r, x) == ScanStructure(f, r, y)
    decreases |f| - r.pos
  {
    var r' := Fgets(f, r);
    if !StartsWith(r'.buffer, "DIMENSIONS") {
      LaterDimensionsWin(f, r', x, y);
    }
  }
}

=== FILE: vtk_writer.dfy ===
/**
 * A writer for the files `Util::loadVTK` accepts, used as its partner: a
 * file written here from a grid of 16-bit samples reads back as that grid.
 * The header follows the legacy VTK layout for STRUCTURED_POINTS with
 * big-endian `unsigned_short` scalars.
 */
module VtkWriter {
  import opened Outcomes
  import opened CText
  import opened VtkReader

  /** A 16-bit sample as the file stores it. */
  type Word = v: int | 0 <= v < 65536

  const Banner: seq<Byte> := "# vtk DataFile Version 3.0\n"
  const Title: seq<Byte> := "volume\n"
  const FormatBinary: seq<Byte> := "BINARY\n"
  const DatasetLine: seq<Byte> := "DATASET STRUCTURED_POINTS\n"
  const SpacingLine: seq<Byte> := "SPACING 1 1 1\n"
  const OriginLine: seq<Byte> := "ORIGIN 0 0 0\n"
  const ScalarsLine: seq<Byte> := "SCALARS " + ScalarName + " " + ScalarTypeName + "\n"
  const ScalarName: seq<Byte> := "volume"
  const ScalarTypeName: seq<Byte> := "unsigned_short"
  const LookupLine: seq<Byte> := "LOOKUP_TABLE default\n"

  /** Digits written after one blank, followed by `rest`. */
  function Field(ds: seq<Byte>, rest: seq<Byte>): (s: seq<Byte>) {
    " " + ds + rest
  }

  function DimensionsLine(w: nat, h: nat, d: nat): (s: seq<Byte>) {
    DimensionsText(Itoa(w), Itoa(h), Itoa(d))
  }

  function DimensionsText(a: seq<Byte>, b: seq<Byte>, c: seq<Byte>): (s: seq<Byte>) {
    "DIMENSIONS" + Field(a, Field(b, Field(c, "\n")))
  }

  function PointDataLine(n: nat): (s: seq<Byte>) {
    "POINT_DATA" + Field(Itoa(n), "\n")
  }

  /** Each sample as two bytes, high byte first. */
  function WordBytes(values: seq<Word>): (bytes: seq<Byte>)
    ensures |bytes| == 2 * |values|
  {
    seq(2 * |values|, j requires 0 <= j < 2 * |values| =>
      if j % 2 == 0 then (values[j / 2] / 256) as char else (values[j / 2] % 256) as char)
  }

  /** Everything after the format line. */
  function Body(w: nat, h: nat, d: nat, values: seq<Word>): (s: seq<Byte>) {
    DatasetLine + Grid(w, h, d, values)
  }

  /** The structure lines, then the scalar part. */
  function Grid(w: nat, h: nat, d: nat, values: seq<Word>): (s: seq<Byte>) {
    DimensionsLine(w, h, d) + (SpacingLine + (OriginLine + (PointDataLine(w * h * d) + Scalars(values))))
  }

  function Scalars(values: seq<Word>): (s: seq<Byte>) {
    ScalarsLine + (LookupLine + WordBytes(values))
  }

  /** A complete file for a w x h x d grid of samples, x fastest. */
  function Encode(w: nat, h: nat, d: nat, values: seq<Word>): (s: seq<Byte>) {
    Banner + (Title + (FormatBinary + Body(w, h, d, values)))
  }

  /** The value the reader stores for a 16-bit sample. */
  function Scaled(values: seq<Word>): (s: seq<real>)
    ensures |s| == |values|
  {
    seq(|values|, i requires 0 <= i < |values| => values[i] as real / 65536.0)
  }

  lemma IntFitsTenDigits(n: nat)
    requires n <= IntMax
    ensures |Itoa(n)| <= 10
  {
    assert Pow10(10) == 10000000000 by {
      assert Pow10(5) == 100000;
    }
    ItoaLength(n, 10);
  }

  /** A suffix that starts with a line holds it at the front. */
  lemma Peel(f: seq<Byte>, p: nat, l: seq<Byte>, g: seq<Byte>)
    requires p <= |f| && f[p..] == l + g
    ensures p + |l| <= |f| && f[p..p + |l|] == l && f[p + |l|..] == g
  {
    assert f[p..p + |l|] == f[p..][..|l|];
    assert f[p + |l|..] == f[p..][|l|..];
  }

  lemma FixedLines()
    ensures WholeLine(Banner) && !IsFormatLine(Banner)
    ensures WholeLine(Title) && !IsFormatLine(Title)
    ensures WholeLine(FormatBinary) && IsFormatLine(FormatBinary)
    ensures WholeLine(DatasetLine) && StartsWith(DatasetLine, "DATASET")
  {
    DiffersAt(Banner, "BINARY", 0);
    DiffersAt(Banner, "ASCII", 0);
    DiffersAt(Title, "BINARY", 0);
    DiffersAt(Title, "ASCII", 0);
  }

  /** The lines the structure loop skips. */
  lemma SkippedLines()
    ensures WholeLine(SpacingLine) && !StartsWith(SpacingLine, "DIMENSIONS") && !StartsWith(SpacingLine, "POINT_DATA")
    ensures WholeLine(OriginLine) && !StartsWith(OriginLine, "DIMENSIONS") && !StartsWith(OriginLine, "POINT_DATA")
  {
    DiffersAt(SpacingLine, "DIMENSIONS", 0);
    DiffersAt(SpacingLine, "POINT_DATA", 0);
    DiffersAt(OriginLine, "DIMENSIONS", 0);
    DiffersAt(OriginLine, "POINT_DATA", 0);
  }

  lemma ScalarLines()
    ensures WholeLine(ScalarsLine) && StartsWith(ScalarsLine, "SCALARS")
    ensures WholeLine(LookupLine) && StartsWith(LookupLine, "LOOKUP_TABLE")
  {
  }

  /** A blank-free word without NUL bytes. */
  predicate IsWord(w: seq<Byte>) {
    |w| >= 1 && Nul !in w && forall k | 0 <= k < |w| :: !IsSpace(w[k])
  }

  /** The type the reader takes from a SCALARS line is its second word. */
  lemma ScalarTypeOf(name: seq<Byte>, t: seq<Byte>)
    requires IsWord(name) && IsWord(t)
    ensures var s := "SCALARS " + name + " " + t + "\n";
      StartsWith(s, "SCALARS") && ScalarType(s) == Some(t)
  {
    var s := "SCALARS " + name + " " + t + "\n";
    assert Nul !in s by {
      assert forall k | 0 <= k < |s| :: s[k] in "SCALARS \n" || s[k] in name || s[k] in t;
    }
    CStringWithoutNul(s);
    assert s[..7] == "SCALARS";
    assert s[8..8 + |name|] == name;
    ScanWordAt(s, 7, name);
    assert s[9 + |name|..9 + |name| + |t|] == t;
    ScanWordAt(s, 8 + |name|, t);
  }

  lemma ScalarsLineType()
    ensures StartsWith(ScalarsLine, "SCALARS")
    ensures ScalarType(ScalarsLine) == Some("unsigned_short")
  {
    assert IsWord(ScalarName) && IsWord(ScalarTypeName);
    ScalarTypeOf(ScalarName, ScalarTypeName);
  }

  /** Digits are neither NUL nor newline nor blank. */
  lemma DigitsArePlain(ds: seq<Byte>)
    requires AllDigits(ds)
    ensures Nul !in ds && NewLine !in ds
    ensures forall k | 0 <= k < |ds| :: !IsSpace(ds[k])
  {
  }

  /** `s` ends with its only newline and holds no NUL byte. */
  predicate EndsLine(s: seq<Byte>) {
    && |s| >= 1 && s[|s| - 1] == NewLine && Nul !in s
    && forall i | 0 <= i < |s| - 1 :: s[i] != NewLine
  }

  lemma FieldEndsLine(ds: seq<Byte>, rest: seq<Byte>)
    requires AllDigits(ds) && EndsLine(rest)
    ensures EndsLine(Field(ds, rest))
  {
    var s := Field(ds, rest);
    DigitsArePlain(ds);
    assert forall i | 0 <= i < |s| ::
      (i == 0 && s[i] == ' ') || (1 <= i < 1 + |ds| && s[i] == ds[i - 1]) || (1 + |ds| <= i && s[i] == rest[i - 1 - |ds|]);
  }

  lemma KeyEndsLine(key: seq<Byte>, rest: seq<Byte>)
    requires EndsLine(rest) && Nul !in key && NewLine !in key
    ensures EndsLine(key + rest)
  {
    var s := key + rest;
    assert forall i | 0 <= i < |s| :: (i < |key| && s[i] == key[i]) || (|key| <= i && s[i] == rest[i - |key|]);
  }

  lemma FieldNumber(ds: seq<Byte>, rest: seq<Byte>)
    requires |ds| >= 1 && AllDigits(ds)
    requires |rest| >= 1 && !IsDigit(rest[0])
    ensures NumberAt(Field(ds, rest), 0, ds)
  {
    var s := Field(ds, rest);
    assert s[1..1 + |ds|] == ds;
  }

  lemma ShiftNumber(p: seq<Byte>, u: seq<Byte>, i: nat, ds: seq<Byte>)
    requires NumberAt(u, i, ds)
    ensures NumberAt(p + u, |p| + i, ds)
  {
    var s := p + u;
    assert s[|p| + i + 1..|p| + i + 1 + |ds|] == u[i + 1..i + 1 + |ds|];
  }

  /** The line ends where it should and has no NUL byte, for any digits. */
  lemma ThreeFieldsEndLine(key: seq<Byte>, a: seq<Byte>, b: seq<Byte>, c: seq<Byte>)
    requires Nul !in key && NewLine !in key
    requires AllDigits(a) && AllDigits(b) && AllDigits(c)
    ensures EndsLine(key + Field(a, Field(b, Field(c, "\n"))))
    ensures |key + Field(a, Field(b, Field(c, "\n")))| == |key| + |a| + |b| + |c| + 4
  {
    FieldEndsLine(c, "\n");
    FieldEndsLine(b, Field(c, "\n"));
    FieldEndsLine(a, Field(b, Field(c, "\n")));
    KeyEndsLine(key, Field(a, Field(b, Field(c, "\n"))));
  }

  lemma ShiftField(a: seq<Byte>, u: seq<Byte>, i: nat, ds: seq<Byte>)
    requires NumberAt(u, i, ds)
    ensures NumberAt(Field(a, u), 1 + |a| + i, ds)
  {
    ShiftNumber(" " + a, u, i, ds);
  }

  lemma FirstNumber(key: seq<Byte>, a: seq<Byte>, rest: seq<Byte>)
    requires |a| >= 1 && AllDigits(a) && |rest| >= 1 && rest[0] == ' '
    ensures NumberAt(key + Field(a, rest), |key|, a)
  {
    FieldNumber(a, rest);
    ShiftNumber(key, Field(a, rest), 0, a);
  }

  lemma SecondNumber(key: seq<Byte>, a: seq<Byte>, b: seq<Byte>, rest: seq<Byte>)
    requires |b| >= 1 && AllDigits(b) && |rest| >= 1 && !IsDigit(rest[0])
    ensures NumberAt(key + Field(a, Field(b, rest)), |key| + 1 + |a|, b)
  {
    FieldNumber(b, rest);
    ShiftField(a, Field(b, rest), 0, b);
    ShiftNumber(key, Field(a, Field(b, rest)), 1 + |a|, b);
  }

  lemma ThirdNumber(key: seq<Byte>, a: seq<Byte>, b: seq<Byte>, c: seq<Byte>)
    requires |c| >= 1 && AllDigits(c)
    ensures NumberAt(key + Field(a, Field(b, Field(c, "\n"))), |key| + 2 + |a| + |b|, c)
  {
    FieldNumber(c, "\n");
    ShiftField(b, Field(c, "\n"), 0, c);
    ShiftField(a, Field(b, Field(c, "\n")), 1 + |b|, c);
    ShiftNumber(key, Field(a, Field(b, Field(c, "\n"))), 2 + |a| + |b|, c);
  }

  lemma DimensionsLineWhole(w: nat, h: nat, d: nat)
    requires w <= IntMax && h <= IntMax && d <= IntMax
    ensures WholeLine(DimensionsLine(w, h, d))
    ensures StartsWith(DimensionsLine(w, h, d), "DIMENSIONS")
  {
    IntFitsTenDigits(w);
    IntFitsTenDigits(h);
    IntFitsTenDigits(d);
    ThreeFieldsEndLine("DIMENSIONS", Itoa(w), Itoa(h), Itoa(d));
  }

  /** The DIMENSIONS line sets all three dimensions. */
  lemma DimensionsLineParses(w: nat, h: nat, d: nat, dims0: Dims)
    ensures StartsWith(DimensionsLine(w, h, d), "DIMENSIONS")
    ensures ParseDimensions(DimensionsLine(w, h, d), dims0) == Dims(w, h, d)
  {
    DimensionsTextParses(Itoa(w), Itoa(h), Itoa(d), dims0);
  }

  lemma DimensionsTextParses(a: seq<Byte>, b: seq<Byte>, c: seq<Byte>, dims0: Dims)
    requires |a| >= 1 && AllDigits(a) && |b| >= 1 && AllDigits(b) && |c| >= 1 && AllDigits(c)
    ensures StartsWith(DimensionsText(a, b, c), "DIMENSIONS")
    ensures ParseDimensions(DimensionsText(a, b, c), dims0) == Dims(Decimal(a), Decimal(b), Decimal(c))
  {
    DimensionsTextIsCString(a, b, c);
    FirstInText(a, b, c);
    SecondInText(a, b, c);
    ThirdInText(a, b, c);
    ParseNumbers(DimensionsText(a, b, c), a, b, c, dims0);
  }

  /** A DIMENSIONS line holding three blank-separated numbers sets all three. */
  lemma ParseNumbers(s: seq<Byte>, a: seq<Byte>, b: seq<Byte>, c: seq<Byte>, dims0: Dims)
    requires StartsWith(s, "DIMENSIONS") && CString(s) == s
    requires NumberAt(s, 10, a) && NumberAt(s, 11 + |a|, b) && NumberAt(s, 12 + |a| + |b|, c)
    ensures ParseDimensions(s, dims0) == Dims(Decimal(a), Decimal(b), Decimal(c))
  {
    ScanAtThird(s, a, b, c);
    ParseFirstTwo(s, a, b, Decimal(c), dims0);
  }

  lemma ParseFirstTwo(s: seq<Byte>, a: seq<Byte>, b: seq<Byte>, d: int, dims0: Dims)
    requires StartsWith(s, "DIMENSIONS") && CString(s) == s
    requires NumberAt(s, 10, a) && NumberAt(s, 11 + |a|, b)
    requires ScanInt(s, 12 + |a| + |b|).Some? && ScanInt(s, 12 + |a| + |b|).value.0 == d
    ensures ParseDimensions(s, dims0) == Dims(Decimal(a), Decimal(b), d)
  {
    ScanAtSecond(s, a, b);
    ParseFirst(s, a, Decimal(b), d, 12 + |a| + |b|, dims0);
  }

  lemma ParseFirst(s: seq<Byte>, a: seq<Byte>, h: int, d: int, q: nat, dims0: Dims)
    requires StartsWith(s, "DIMENSIONS") && CString(s) == s && 11 + |a| <= q <= |s|
    requires NumberAt(s, 10, a)
    requires ScanInt(s, 11 + |a|) == Some((h, q))
    requires ScanInt(s, q).Some? && ScanInt(s, q).value.0 == d
    ensures ParseDimensions(s, dims0) == Dims(Decimal(a), h, d)
  {
    ScanAtFirst(s, a);
    ParseThree(s, dims0, Decimal(a), h, d, 11 + |a|, q);
  }

  lemma DimensionsTextIsCString(a: seq<Byte>, b: seq<Byte>, c: seq<Byte>)
    requires AllDigits(a) && AllDigits(b) && AllDigits(c)
    ensures StartsWith(DimensionsText(a, b, c), "DIMENSIONS")
    ensures |DimensionsText(a, b, c)| == 14 + |a| + |b| + |c|
    ensures CString(DimensionsText(a, b, c)) == DimensionsText(a, b, c)
  {
    DimensionsTextPlain(a, b, c);
  }

  lemma DimensionsTextPlain(a: seq<Byte>, b: seq<Byte>, c: seq<Byte>)
    requires AllDigits(a) && AllDigits(b) && AllDigits(c)
    ensures EndsLine(DimensionsText(a, b, c)) && StartsWith(DimensionsText(a, b, c), "DIMENSIONS")
    ensures |DimensionsText(a, b, c)| == 14 + |a| + |b| + |c|
    ensures CString(DimensionsText(a, b, c)) == DimensionsText(a, b, c)
  {
    ThreeFieldsEndLine("DIMENSIONS", a, b, c);
    CStringWithoutNul(DimensionsText(a, b, c));
  }

  lemma SecondInText(a: seq<Byte>, b: seq<Byte>, c: seq<Byte>)
    requires |b| >= 1 && AllDigits(b)
    ensures NumberAt(DimensionsText(a, b, c), 11 + |a|, b)
  {
    SecondNumber("DIMENSIONS", a, b, Field(c, "\n"));
  }

  lemma ThirdInText(a: seq<Byte>, b: seq<Byte>, c: seq<Byte>)
    requires |c| >= 1 && AllDigits(c)
    ensures NumberAt(DimensionsText(a, b, c), 12 + |a| + |b|, c)
  {
    ThirdNumber("DIMENSIONS", a, b, c);
  }

  lemma FirstInText(a: seq<Byte>, b: seq<Byte>, c: seq<Byte>)
    requires |a| >= 1 && AllDigits(a)
    ensures NumberAt(DimensionsText(a, b, c), 10, a)
  {
    FirstNumber("DIMENSIONS", a, Field(b, Field(c, "\n")));
  }

  lemma ScanAtFirst(s: seq<Byte>, a: seq<Byte>)
    requires NumberAt(s, 10, a)
    ensures ScanInt(s, 10) == Some((Decimal(a), 11 + |a|))
  {
    ScanIntAt(s, 10, a, 11 + |a|);
  }

  lemma ScanAtThird(s: seq<Byte>, a: seq<Byte>, b: seq<Byte>, c: seq<Byte>)
    requires NumberAt(s, 12 + |a| + |b|, c)
    ensures ScanInt(s, 12 + |a| + |b|) == Some((Decimal(c), 13 + |a| + |b| + |c|))
  {
    ScanIntAt(s, 12 + |a| + |b|, c, 13 + |a| + |b| + |c|);
  }

  lemma ScanAtSecond(s: seq<Byte>, a: seq<Byte>, b: seq<Byte>)
    requires NumberAt(s, 11 + |a|, b)
    ensures ScanInt(s, 11 + |a|) == Some((Decimal(b), 12 + |a| + |b|))
  {
    ScanIntAt(s, 11 + |a|, b, 12 + |a| + |b|);
  }

  lemma ParseThree(s: seq<Byte>, dims0: Dims, w: int, h: int, d: int, p: nat, q: nat)
    requires StartsWith(s, "DIMENSIONS") && CString(s) == s && p <= |s| && q <= |s|
    requires ScanInt(s, 10) == Some((w, p))
    requires ScanInt(s, p) == Some((h, q))
    requires ScanInt(s, q).Some? && ScanInt(s, q).value.0 == d
    ensures ParseDimensions(s, dims0) == Dims(w, h, d)
  {
  }

  lemma PointDataLineFacts(n: nat)
    requires n <= IntMax
    ensures WholeLine(PointDataLine(n))
    ensures !StartsWith(PointDataLine(n), "DIMENSIONS") && StartsWith(PointDataLine(n), "POINT_DATA")
  {
    IntFitsTenDigits(n);
    FieldEndsLine(Itoa(n), "\n");
    KeyEndsLine("POINT_DATA", Field(Itoa(n), "\n"));
    DiffersAt(PointDataLine(n), "DIMENSIONS", 0);
  }

  /** The structure part of a written file: the DIMENSIONS line, two lines
      the loop skips, and the POINT_DATA line that ends it. */
  lemma StructureOf(f: seq<Byte>, l1: seq<Byte>, l2: seq<Byte>, l3: seq<Byte>, l4: seq<Byte>, rest: seq<Byte>,
                    p: nat, stale: seq<Byte>, dims0: Dims, dims: Dims)
    requires f == l1 + (l2 + (l3 + (l4 + rest))) && p == |l1| + |l2| + |l3| + |l4|
    requires WholeLine(l1) && StartsWith(l1, "DIMENSIONS") && ParseDimensions(l1, dims0) == dims
    requires WholeLine(l2) && !StartsWith(l2, "DIMENSIONS") && !StartsWith(l2, "POINT_DATA")
    requires WholeLine(l3) && !StartsWith(l3, "DIMENSIONS") && !StartsWith(l3, "POINT_DATA")
    requires WholeLine(l4) && !StartsWith(l4, "DIMENSIONS") && StartsWith(l4, "POINT_DATA")
    ensures p <= |f| && f[p..] == rest
    ensures ScanStructure(f, Reader(0, stale), dims0) == Success((Reader(p, l4), dims))
  {
    var p1, p2, p3, p4 := |l1|, |l1| + |l2|, |l1| + |l2| + |l3|, p;
    assert f[0..] == f;
    StructureStep(f, 0, p1, stale, l1, l2 + (l3 + (l4 + rest)), dims0);
    StructureStep(f, p1, p2, l1, l2, l3 + (l4 + rest), dims);
    StructureStep(f, p2, p3, l2, l3, l4 + rest, dims);
    StructureStep(f, p3, p4, l3, l4, rest, dims);
  }

  /** One structure-loop pass over the line at the front of `f[p..]`. */
  lemma StructureStep(f: seq<Byte>, p: nat, q: nat, stale: seq<Byte>, l: seq<Byte>, rest: seq<Byte>, dims: Dims)
    requires p <= |f| && f[p..] == l + rest && WholeLine(l) && q == p + |l|
    ensures q <= |f| && f[q..] == rest
    ensures ScanStructure(f, Reader(p, stale), dims) ==
      if StartsWith(l, "DIMENSIONS") then ScanStructure(f, Reader(q, l), ParseDimensions(l, dims))
      else if StartsWith(l, "POINT_DATA") then Success((Reader(q, l), dims))
      else ScanStructure(f, Reader(q, l), dims)
  {
    Peel(f, p, l, rest);
    StructureLine(f, Reader(p, stale), q, l, dims);
  }

  /** The part after POINT_DATA: the SCALARS and LOOKUP_TABLE lines, then
      the data, which must hold two bytes per sample. */
  lemma ScalarsOf(f: seq<Byte>, p: nat, q: nat, e: nat, l5: seq<Byte>, l6: seq<Byte>, data: seq<Byte>,
                  stale: seq<Byte>, dims0: Dims, r2: Reader, dims: Dims)
    requires ScanStructure(f, Reader(0, stale), dims0) == Success((r2, dims))
    requires r2.pos == p && p <= |f| && f[p..] == l5 + (l6 + data)
    requires q == p + |l5| && e == q + |l6|
    requires WholeLine(l5) && StartsWith(l5, "SCALARS") && ScalarType(l5) == Some("unsigned_short")
    requires WholeLine(l6) && StartsWith(l6, "LOOKUP_TABLE")
    requires CountFits(dims) && dims.width * dims.height * dims.depth >= 0
    ensures e <= |f| && f[e..] == data
    ensures var count := dims.width * dims.height * dims.depth;
      LoadData(f, stale, dims0) ==
        if 2 * count <= |data| then Success(Volume(dims.width, dims.height, dims.depth, Samples(f, e, count)))
        else Failure(TruncatedData)
  {
    ReadWholeLine(f, p, q, r2, l5, l6 + data);
    ReadWholeLine(f, q, e, Reader(q, l5), l6, data);
    LoadDataTail(f, stale, dims0, r2, dims, Reader(q, l5), Reader(e, l6));
  }

  /** `fgets` at the front of `f[p..]` returns the line there. */
  lemma ReadWholeLine(f: seq<Byte>, p: nat, q: nat, r: Reader, l: seq<Byte>, rest: seq<Byte>)
    requires r.pos == p && p <= |f| && f[p..] == l + rest && WholeLine(l) && q == p + |l|
    ensures q <= |f| && f[q..] == rest
    ensures Fgets(f, r) == Reader(q, l)
  {
    Peel(f, p, l, rest);
    FgetsWholeLine(f, r, l);
  }

  /** `LoadData` once the structure loop and the next two reads are known. */
  lemma LoadDataTail(f: seq<Byte>, stale: seq<Byte>, dims0: Dims, r2: Reader, dims: Dims, r3: Reader, r4: Reader)
    requires ScanStructure(f, Reader(0, stale), dims0) == Success((r2, dims))
    requires r2.pos <= |f| && Fgets(f, r2) == r3 && r3.pos <= |f| && Fgets(f, r3) == r4
    requires StartsWith(r3.buffer, "SCALARS") && ScalarType(r3.buffer) == Some("unsigned_short")
    requires StartsWith(r4.buffer, "LOOKUP_TABLE")
    requires CountFits(dims) && dims.width * dims.height * dims.depth >= 0
    ensures var count := dims.width * dims.height * dims.depth;
      LoadData(f, stale, dims0) ==
        if r4.pos + 2 * count <= |f| then Success(Volume(dims.width, dims.height, dims.depth, Samples(f, r4.pos, count)))
        else Failure(TruncatedData)
  {
  }

  /** The samples read back from the written bytes are the written values
      scaled by 1/65536. */
  lemma SamplesOfWords(f: seq<Byte>, p: nat, values: seq<Word>)
    requires p <= |f| && f[p..] == WordBytes(values)
    ensures p + 2 * |values| == |f|
    ensures Samples(f, p, |values|) == Scaled(values)
  {
    var bytes := WordBytes(values);
    forall i | 0 <= i < |values|
      ensures Samples(f, p, |values|)[i] == Scaled(values)[i]
    {
      assert f[p + 2 * i] == bytes[2 * i];
      assert f[p + 2 * i + 1] == bytes[2 * i + 1];
      var v := values[i];
      assert (v / 256) * 256 + v % 256 == v;
    }
  }

  /** The part after the DATASET line reads back as the grid. */
  lemma GridLoads(w: nat, h: nat, d: nat, values: seq<Word>, dims0: Dims)
    requires w <= IntMax && h <= IntMax && d <= IntMax && w * h <= IntMax && w * h * d <= IntMax
    requires |values| == w * h * d
    ensures LoadData(Grid(w, h, d, values), DatasetLine, dims0) == Success(Volume(w, h, d, Scaled(values)))
  {
    CountOfNats(w, h, d);
    DimensionsLineWhole(w, h, d);
    DimensionsLineParses(w, h, d, dims0);
    SkippedLines();
    PointDataLineFacts(w * h * d);
    ScalarLines();
    ScalarsLineType();
    var data := WordBytes(values);
    LinesLoad(Grid(w, h, d, values), DimensionsLine(w, h, d), SpacingLine, OriginLine, PointDataLine(w * h * d),
      ScalarsLine, LookupLine, data, DatasetLine, dims0, Dims(w, h, d));
    assert data[0..] == data;
    SamplesOfWords(data, 0, values);
  }

  /** Natural dimensions whose products stay below IntMax fit the source's ints. */
  lemma CountOfNats(w: nat, h: nat, d: nat)
    requires w <= IntMax && h <= IntMax && d <= IntMax && w * h <= IntMax && w * h * d <= IntMax
    ensures CountFits(Dims(w, h, d)) && w * h * d >= 0
  {
    var wh := w * h;
    assert wh >= 0;
    assert wh * d >= 0;
  }

  /**
   * A STRUCTURED_POINTS part laid out line by line (DIMENSIONS, two lines the
   * structure loop skips, POINT_DATA, SCALARS of type unsigned_short,
   * LOOKUP_TABLE) followed by `data`: the samples are the byte pairs that
   * start right after the LOOKUP_TABLE line, and bytes past the last sample
   * are ignored. With fewer than two bytes per sample the read fails.
   */
  lemma LinesLoad(f: seq<Byte>, l1: seq<Byte>, l2: seq<Byte>, l3: seq<Byte>, l4: seq<Byte>, l5: seq<Byte>, l6: seq<Byte>,
                  data: seq<Byte>, stale: seq<Byte>, dims0: Dims, dims: Dims)
    requires f == l1 + (l2 + (l3 + (l4 + (l5 + (l6 + data)))))
    requires WholeLine(l1) && StartsWith(l1, "DIMENSIONS") && ParseDimensions(l1, dims0) == dims
    requires WholeLine(l2) && !StartsWith(l2, "DIMENSIONS") && !StartsWith(l2, "POINT_DATA")
    requires WholeLine(l3) && !StartsWith(l3, "DIMENSIONS") && !StartsWith(l3, "POINT_DATA")
    requires WholeLine(l4) && !StartsWith(l4, "DIMENSIONS") && StartsWith(l4, "POINT_DATA")
    requires WholeLine(l5) && StartsWith(l5, "SCALARS") && ScalarType(l5) == Some("unsigned_short")
    requires WholeLine(l6) && StartsWith(l6, "LOOKUP_TABLE")
    requires CountFits(dims) && dims.width * dims.height * dims.depth >= 0
    ensures var count := dims.width * dims.height * dims.depth;
      LoadData(f, stale, dims0) ==
        if 2 * count <= |data| then Success(Volume(dims.width, dims.height, dims.depth, Samples(data, 0, count)))
        else Failure(TruncatedData)
  {
    var p := |l1| + |l2| + |l3| + |l4|;
    StructureOf(f, l1, l2, l3, l4, l5 + (l6 + data), p, stale, dims0, dims);
    var q := p + |l5|;
    var e := q + |l6|;
    ScalarsOf(f, p, q, e, l5, l6, data, stale, dims0, Reader(p, l4), dims);
    var count := dims.width * dims.height * dims.depth;
    if 2 * count <= |data| {
      SamplesOfSuffix(f, e, count);
    }
  }

  /**
   * A whole file laid out as a format line, a DATASET line and the lines of
   * LinesLoad: the samples are decoded from the bytes that start right after
   * the LOOKUP_TABLE line, two per sample, high byte first.
   */
  lemma LaidOutLoads(m: seq<Byte>, l0: seq<Byte>, l1: seq<Byte>, l2: seq<Byte>, l3: seq<Byte>, l4: seq<Byte>,
                     l5: seq<Byte>, l6: seq<Byte>, data: seq<Byte>, dims0: Dims, dims: Dims)
    requires WholeLine(m) && IsFormatLine(m)
    requires WholeLine(l0) && StartsWith(l0, "DATASET")
    requires WholeLine(l1) && StartsWith(l1, "DIMENSIONS") && ParseDimensions(l1, dims0) == dims
    requires WholeLine(l2) && !StartsWith(l2, "DIMENSIONS") && !StartsWith(l2, "POINT_DATA")
    requires WholeLine(l3) && !StartsWith(l3, "DIMENSIONS") && !StartsWith(l3, "POINT_DATA")
    requires WholeLine(l4) && !StartsWith(l4, "DIMENSIONS") && StartsWith(l4, "POINT_DATA")
    requires WholeLine(l5) && StartsWith(l5, "SCALARS") && ScalarType(l5) == Some("unsigned_short")
    requires WholeLine(l6) && StartsWith(l6, "LOOKUP_TABLE")
    requires CountFits(dims) && dims.width * dims.height * dims.depth >= 0
    ensures var count := dims.width * dims.height * dims.depth;
      var f := m + (l0 + (l1 + (l2 + (l3 + (l4 + (l5 + (l6 + data)))))));
      Load(f, dims0) ==
        if 2 * count <= |data| then Success(Volume(dims.width, dims.height, dims.depth, Samples(data, 0, count)))
        else Failure(TruncatedData)
  {
    var g := l1 + (l2 + (l3 + (l4 + (l5 + (l6 + data)))));
    LoadAfterDataset(m, l0, g, dims0);
    LinesLoad(g, l1, l2, l3, l4, l5, l6, data, l0, dims0, dims);
  }

  /** Decoding from offset `e` of a file is decoding its suffix from 0. */
  lemma SamplesOfSuffix(f: seq<Byte>, e: nat, count: nat)
    requires e + 2 * count <= |f|
    ensures Samples(f, e, count) == Samples(f[e..], 0, count)
  {
  }

  /** Reading a written file gives back its dimensions and its samples,
      each scaled by 1/65536, whatever the caller's variables held. */
  lemma RoundTrip(w: nat, h: nat, d: nat, values: seq<Word>, dims0: Dims)
    requires w <= IntMax && h <= IntMax && d <= IntMax && w * h <= IntMax && w * h * d <= IntMax
    requires |values| == w * h * d
    ensures Load(Encode(w, h, d, values), dims0) == Success(Volume(w, h, d, Scaled(values)))
  {
    var body := Body(w, h, d, values);
    FixedLines();
    SkipsLineBeforeFormat(Banner, Title + (FormatBinary + body), dims0);
    SkipsLineBeforeFormat(Title, FormatBinary + body, dims0);
    FormatLineFirst(FormatBinary, body, dims0);
    LoadBodyLine(DatasetLine, Grid(w, h, d, values), FormatBinary, dims0);
    GridLoads(w, h, d, values, dims0);
  }
}
